=== FILE: README.md ===
# pocket-mcp, modelled in Dafny

pocket-mcp lets a user pick a group of MCP servers from a dashboard, start
each one behind an `mcp-proxy` child process that speaks SSE, and hand out
an API key that names exactly the servers that started. A small HTTP
gateway accepts that key and tells a client where the servers can be
reached. A separate example client describes tools to a language model and
calls them with retries.

This project models that core and proves properties of it:

- `wrappers.dfy`: `Option` and `Result`.
- `decimal.dfy` (module `Decimal`): Python's `str()` of an integer and
  its inverse, used for the `--sse-port=` flag and the advertised URL.
- `auth.dfy` (module `Auth`): the key store of `client/src/auth.py`. The
  JSON key file is a `KeyFile` object shared by the dashboard's and the
  gateway's `AuthManager`. Every load or save failure is swallowed, as in
  the source.
- `server.dfy` (module `Supervisor`): `Server` (one child process and a
  session) and `ServerManager` (servers by name in insertion order, plus
  the selection) from `client/src/server.py`.
- `gateway.dfy` (module `Gateway`): `verify_api_key`, `/api/servers`,
  `/api/health` and `find_free_port` from `client/src/api_server.py`.
- `tools.dfy` (module `ToolClient`): `Tool.format_for_llm` in both forms,
  `Server.initialize`, `Server.execute_tool` and `Server.cleanup` from
  `example_llm_mcp/main.py`.
- `launch.dfy` (module `Launch`): the dashboard's launch button
  (`client/app.py`), which starts the selection and issues a key for what
  started, and end-to-end lemmas from issuing a key to the gateway's
  answer.

The operating system is never consulted. What it would decide becomes a
parameter:

- where `shutil.which` finds a program;
- Python's salted `hash()` of a server name;
- the inherited environment;
- whether `poll()` reports a child gone;
- whether `Popen`, `bind`, a file read or a file write succeeds;
- how `terminate`/`wait`/`kill` end;
- what each `call_tool` attempt returns;
- the token from `secrets.token_urlsafe(32)` and the time from `time.time()`.

## Model

| member | source | states |
|---|---|---|
| Auth.Loaded | client/src/auth.py:20-33 | a missing file, a corrupt file or a failed read gives the empty store; otherwise the stored dictionary |
| Auth.Saved | client/src/auth.py:35-41 | a completed write stores exactly the given keys; a failed `open` leaves the file as it was; a write that fails after truncation leaves a file that loads as empty |
| Auth.Issue | client/src/auth.py:56-59 | the token maps to the given list and time; every other key is kept with its credential, and no key is added besides the token |
| Auth.Revoke | client/src/auth.py:93-94 | the key is gone; every other key and its credential is kept |
| Auth.Lookup | client/src/auth.py:80-82 | valid exactly when the key is present; then the list it was issued for, else the empty list |
| Auth.AuthManager.constructor | client/src/auth.py:11-18 | the manager holds what loading its file gives |
| Auth.AuthManager.LoadKeys | client/src/auth.py:20-33 | the store read from the file, or empty on any failure |
| Auth.AuthManager.SaveKeys | client/src/auth.py:35-41 | the file afterwards is `Saved` of its old state, the keys in memory and the outcome |
| Auth.AuthManager.GenerateKey | client/src/auth.py:43-64 | returns the token; memory gains exactly that entry; the file is saved from the new memory |
| Auth.AuthManager.ValidateKey | client/src/auth.py:66-82 | memory is replaced by the file's content first; valid iff the key is in it; the list is the key's list, or empty |
| Auth.AuthManager.RevokeKey | client/src/auth.py:84-97 | true iff the key was in memory (no reload); memory loses the key; the file is saved only when something was deleted |
| Auth.AuthManager.GetAllKeys | client/src/auth.py:99-105 | returns the store in memory |
| Auth.PersistReload | client/src/auth.py:20-41 | saving and then loading with no change in between gives back the same mapping |
| Auth.IssueFreshAddsOne | client/src/auth.py:56-59 | issuing a fresh token grows the store by exactly one, and removing it gives back the old store |
| Auth.IssueThenValidate | client/src/auth.py:43-82 | a key issued and saved validates to exactly the list it was issued for |
| Auth.IssueUnsavedIsInvisible | client/src/auth.py:43-82 | when the save after issuing fails, a validation that rereads the file does not accept the token |
| Auth.RevokeThenValidate | client/src/auth.py:66-97 | after a saved revocation, validating the key gives `(False, [])` |
| Auth.RevokeTwice | client/src/auth.py:84-97 | revoking twice is the same as revoking once |
| Supervisor.HashPort | client/src/server.py:44 | the default port lies in 3000..3999 and agrees with the hash modulo 1000 (floored, as in Python) |
| Supervisor.SsePort | client/src/server.py:44 | a configured `sse_port` wins; otherwise the hashed port in 3000..3999 |
| Supervisor.ChildEnv | client/src/server.py:61-63 | the inherited environment, overridden key by key by the configured `env` when that key is present |
| Supervisor.LaunchArgv | client/src/server.py:51-67 | the proxy, the five fixed flags with the port, the resolved command, then the configured arguments in order |
| Supervisor.LaunchPortReadBack | client/src/server.py:53 | the `--sse-port=` flag parses back to the port it was built from |
| Supervisor.PlannedSpawn | client/src/server.py:36-73 | spawns iff `mcp-proxy` and the command resolve and `command` and `args` are configured; the child gets `LaunchArgv` of the `SsePort` and `ChildEnv` |
| Supervisor.AfterStart | client/src/server.py:30-80 | a live child is kept; otherwise the planned child when it can be spawned, else no child |
| Supervisor.AfterStop | client/src/server.py:82-108 | the handle is cleared unless `terminate`/`kill` raised; no child stays no child |
| Supervisor.AfterCleanup | client/src/server.py:110-117 | the session is cleared unless closing the exit stack raised |
| Supervisor.StartIsIdempotent | client/src/server.py:32-34 | starting a running server, once or twice, keeps its child and spawns nothing |
| Supervisor.Server.constructor | client/src/server.py:16-28 | a new server has neither process nor session |
| Supervisor.Server.IsRunning | client/src/server.py:119-134 | running iff a handle exists and is not reported gone; a gone handle is cleared |
| Supervisor.Server.Start | client/src/server.py:30-80 | the handle afterwards is `AfterStart` of the handle before and the planned spawn; true iff a child exists afterwards |
| Supervisor.Server.Cleanup | client/src/server.py:110-117 | the session afterwards is `AfterCleanup` of the one before |
| Supervisor.Server.Stop | client/src/server.py:82-108 | cleanup always runs; the handle afterwards is `AfterStop`; true iff there was no child or the signals did not raise |
| Supervisor.LiveNamesMembers | client/src/server.py:220-226 | a name is listed iff it is known, has a handle and is not reported gone |
| Supervisor.LiveNamesDistinct | client/src/server.py:220-226 | the running list repeats no name |
| Supervisor.ServerManager.constructor | client/src/server.py:140-143 | no servers and an empty selection |
| Supervisor.ServerManager.SelectServers | client/src/server.py:145-151 | the selection becomes exactly the given names, replacing the old one; the servers are untouched |
| Supervisor.ServerManager.GetSelectedServers | client/src/server.py:153-159 | returns the selection |
| Supervisor.ServerManager.Register | client/src/server.py:171-172 | a new name gets a new server built from the given configuration, with no process and no session, appended to the insertion order; existing servers stay the same objects |
| Supervisor.ServerManager.StartServer | client/src/server.py:161-174 | a server is created only for a new name, with no session, so a known name keeps its first configuration; no session changes; its handle afterwards is `AfterStart`; no other server's handle changes |
| Supervisor.ServerManager.StartOne | client/src/server.py:187-189 | one step of the selection loop: the registry keeps mirroring every handle, with the started name's new handle recorded; a new server has no session, and servers created earlier in the loop keep none; the insertion order is kept for a known name and gains the name at its end for a new one |
| Supervisor.OrderGrows | client/src/server.py:171-172 | when a registry grows by appending to its insertion order, the appended names are exactly the newly created servers |
| Supervisor.ServerManager.StartSelectedServers | client/src/server.py:176-198 | servers are created exactly for selected, configured names; the old insertion order is a prefix of the new one, followed by exactly the new names, each with no session; the result lists each such name that has a child afterwards, once, and nothing else; each selected, configured server's handle is `AfterStart` of its old handle and its first configuration; all other handles are unchanged |
| Supervisor.ServerManager.StopServer | client/src/server.py:200-213 | an unknown name gives false and creates nothing; a known one is stopped as `Server.Stop` states; no other server changes |
| Supervisor.ServerManager.StopAllServers | client/src/server.py:215-218 | every known server is stopped, each with its own outcome, whatever happened to the others |
| Supervisor.ServerManager.GetRunningServers | client/src/server.py:220-226 | the result is the live names in insertion order; every handle reported gone is cleared, and the others are kept |
| Supervisor.ServerManager.IsServerRunning | client/src/server.py:228-240 | running iff the name is known and its handle is live; only that server's handle may be cleared |
| Gateway.BearerKey | client/src/api_server.py:32-35 | the text after a leading `Bearer `, otherwise the whole header |
| Gateway.BearerForms | client/src/api_server.py:32-35 | an issued token passes through unchanged whether it is sent bare or after `Bearer ` |
| Gateway.Authorize | client/src/api_server.py:28-41 | a missing or empty header gives 401 "API key required"; otherwise accepted iff the extracted key is in the store, with its list; a refusal is 401 "Invalid API key" |
| Gateway.VerifyApiKey | client/src/api_server.py:28-41 | the answer is `Authorize` against the store; the key file is reloaded only for a non-empty header |
| Gateway.SseUrl | client/src/api_server.py:57 | the URL starts with `http://0.0.0.0:` and ends with `/sse` |
| Gateway.SseUrlPort | client/src/api_server.py:57 | the port can be read back from the advertised URL |
| Gateway.SseUrlInjective | client/src/api_server.py:57 | distinct ports give distinct URLs |
| Gateway.ListedPort | client/src/api_server.py:51 | the listing's port rule as written: `3000 + hash(name) % 1000` for every name |
| Gateway.LaunchPort | client/src/server.py:44 | the corrected port rule: for a configured name, the port its child was launched on |
| Gateway.Listing | client/src/api_server.py:48-59 | no longer than the authorized list; lists a name iff it is authorized and configured, each with its URL |
| Gateway.ListingAppend | client/src/api_server.py:48-59 | the listing keeps the order of the authorized list |
| Gateway.GetServers | client/src/api_server.py:44-64 | `success` is true and the servers are `Listing` of the authorized names under the given port rule |
| Gateway.ServeServers | client/src/api_server.py:28-64 | under a given port rule: a refused request gives its 401 and no listing; an accepted one is served, and its listing is `Listing` of the key's list: exactly the key's configured names, in the key's order, each at the URL of its port; `ListedPort` gives the endpoint as written |
| Gateway.ServersEndpoint | client/src/api_server.py:44-64 | the response is `ServeServers` under the given port rule, against the store reloaded from the key file; a missing or empty header leaves the gateway's store as it was |
| Gateway.EndpointAsWrittenMisroutes | client/src/api_server.py:44-64 | as written, an authorized server whose `sse_port` lies outside 3000..3999 (8080, say) is listed, but at a URL its child does not listen on |
| Gateway.EndpointCorrectedRoutes | client/src/server.py:44-53 | under the corrected rule, every URL the endpoint lists carries the port of that server's `--sse-port=` flag |
| Gateway.ListedPortIgnoresSsePort | client/src/api_server.py:51 | with an `sse_port` outside 3000..3999 (8080, say), the URL advertised under the rule as written is not the one the child listens on |
| Gateway.LaunchPortMatchesChild | client/src/server.py:44-53 | under the corrected rule, every advertised URL carries the port of the child's `--sse-port=` flag |
| Gateway.HealthCheck | client/src/api_server.py:67-69 | always `{"status": "ok"}` |
| Gateway.FirstFree | client/src/api_server.py:72-80 | a port found is the first in range that binds, and every earlier one refused; no port means all refused; a port outside 0..65535 stops the probe with every earlier one refused |
| Gateway.FirstFreeFinds | client/src/api_server.py:72-80 | a range of valid ports containing a bindable one yields a port no later than it |
| Gateway.DefaultProbeInRange | client/src/api_server.py:72 | with the default range 8000..8099 the probe yields a port in that range or `IOError`, never an out-of-range port |
| Gateway.FindFreePort | client/src/api_server.py:72-80 | the loop's outcome is `FirstFree` of the range, which defaults to 8000..8099 |
| ToolClient.LookupDistinct | example_llm_mcp/main.py:163-164 | on the items of a dict, whose keys are distinct, looking up a key finds the value stored with it |
| ToolClient.Contains | example_llm_mcp/main.py:168 | `name in required` as Python evaluates it for a list, a dict and a string; any other value raises `TypeError` |
| ToolClient.Description | example_llm_mcp/main.py:166 | the property's `description`, or "No description" when missing; a dict property never raises, whatever its `description` holds; a non-dict property raises `AttributeError` |
| ToolClient.ArgLines | example_llm_mcp/main.py:161-170 | one line per property, in order, each `- name: description` with the marker iff required; fails iff some property raises |
| ToolClient.ArgLineMarker | example_llm_mcp/main.py:165-169 | a line ends with ` (required)` iff the parameter is required, when the description itself does not end that way |
| ToolClient.FormatText | example_llm_mcp/main.py:160-177 | the loop yields `TextForm`: the header lines and the argument lines joined by newlines, or the first exception |
| ToolClient.FirstFailureSticks | example_llm_mcp/main.py:163-170 | once a property raises, the whole formatting raises the same exception |
| ToolClient.FunctionCallForm | example_llm_mcp/main.py:143-159 | fails, with `AttributeError`, iff `properties` is present and not a dict |
| ToolClient.FunctionCallFields | example_llm_mcp/main.py:143-159 | `type` is "function"; name and description are copied; `parameters` has type "object", the schema's properties or `{}`, and `required`/`additionalProperties` defaulting to `[]`/`false` |
| ToolClient.FormsAgree | example_llm_mcp/main.py:142-177 | a tool the text form can describe also has a function-call form, whose properties give argument lines |
| ToolClient.Attempts | example_llm_mcp/main.py:104-120 | success is the first attempt that succeeds, after only failures; failure means every attempt failed, and it re-raises the last error |
| ToolClient.ResolveParams | example_llm_mcp/main.py:49-64 | resolves exactly when `command` is a string, `args` is present and `"npx"`, if named, is found on the PATH; a missing `command` or `args` is a `KeyError`; `"npx"` is resolved on the PATH and a `None` result is refused; other commands are used as written; the environment is passed, merged over the inherited one, only when `env` is non-empty |
| ToolClient.Server.constructor | example_llm_mcp/main.py:41-47 | a new server has no session |
| ToolClient.Server.Initialize | example_llm_mcp/main.py:49-78 | a resolution error is raised with the session untouched; a failed connection runs cleanup and raises; otherwise the session is open |
| ToolClient.Server.Cleanup | example_llm_mcp/main.py:122-129 | the session is dropped unless closing raised |
| ToolClient.Server.ExecuteTool | example_llm_mcp/main.py:94-120 | no session raises at once, with no call made; otherwise at most `retries` calls; the first success is returned after only failures; a failure comes after exactly `retries` calls; `retries <= 0` returns `None` with no call; `retries` defaults to 2 |
| Launch.LaunchSelected | client/app.py:138-146 | the started list holds, once each, exactly the selected, configured names whose server has a child afterwards; every handle, the insertion order and the new servers' empty sessions end as `StartSelectedServers` states; a key is issued and saved iff the list is non-empty, naming exactly that list |
| Launch.LaunchedKeyScope | client/app.py:146 | a key issued at launch and saved authorizes at the gateway, in either header form, exactly the started list; the listing then names no server outside the selection and the configuration |
| Launch.RevokedKeyRefused | client/src/auth.py:84-97 | once a revocation is saved, the gateway refuses the key in either header form |

## Left out

- The processes, files, sockets, clocks and random numbers themselves. Each appears only as a parameter carrying its outcome.
- Printing and logging.
- The asyncio scheduling, the cleanup lock and any concurrency between the dashboard and the gateway thread. Each operation is modelled as one atomic step.
- `Server.session` in `client/src/server.py`: nothing in that file opens a session. It is modelled as an optional value that `cleanup` clears.
- `Server.list_tools` and the language-model chat loop of `example_llm_mcp/main.py`. They only forward protocol messages.
- `client/src/config.py` and `client/src/api.py`. The configuration reaches the model as a map from name to `ServerConfig`.
- The Streamlit page of `client/app.py` beyond the launch button.
- `start_api_server` and the FastAPI/uvicorn wiring and CORS setup.
- Supervisor.ServerManager.StartSelectedServers: Python walks the selected set in hash order, which is unspecified. The model picks any order, so its contract holds for every order. The started list is therefore stated as a set of distinct names, not as a sequence.
- Auth.Loaded: a key file that is valid JSON but not a dictionary of credentials is treated as corrupt. In Python, it would later fail at lookup time instead.
- Configuration types: `args` is a list of strings and `sse_port` an integer. A configuration of other types, whose `str()` or list concatenation would behave differently, is not modelled.
- ToolClient.Description: Python's `str()` of a non-string description is the parameter `show`. Its text is not modelled.
- ToolClient.ArgLineMarker: the marker is tied to the required flag only when the description does not itself end in ` (required)`. Otherwise the line cannot show the flag.
- ToolClient.Server.ExecuteTool: the `delay` between attempts is not modelled.
- ToolClient.ResolveParams: a non-string `command` is refused as `CommandNotString`. This stands in for the validation inside `StdioServerParameters`, which is not part of this model.
- Auth.AuthManager.GetAllKeys: Python returns the live `keys` dict, not a copy. A caller therefore sees later `generate_key` and `revoke_key` changes through it, until `validate_key` rebinds the attribute. The model returns the store as a value, so that aliasing is not captured.
- Supervisor.ServerManager.GetSelectedServers: Python returns the live selection set. The model returns it as a value, so later changes made through the result are not captured.
- JSON objects: `Json` keeps an object as its list of items. `json.load` never yields a key twice, and the model assumes the same (`ToolClient.DistinctKeys`). On a list with repeated keys `Lookup` takes the first value and `ArgLines` gives one line per item.
- Python's `hash()` is one parameter shared by the launcher and the gateway. The gateway thread runs in the dashboard's process, so both see the same salt. A gateway started as a process of its own would hash differently; that case is not modelled.
- Aliasing between managers: the `ServerManager` methods state their effect through `old` and frames over the server objects the manager owns (`Repr`). Two managers sharing one `Server` object are not modelled.

## Findings

| source | as written | input that shows it | evidently intended | confidence | as-written member | corrected member |
|---|---|---|---|---|---|---|
| client/src/api_server.py:51 | `/api/servers` always advertises port `3000 + hash(name) % 1000`, but `client/src/server.py:44` launches the child on the configured `sse_port` when there is one | a server configured with `"sse_port": 8080`: the child listens on 8080, while the listing advertises a port between 3000 and 3999 | the advertised URL carries the port the child was launched on | high, not executed | Gateway.EndpointAsWrittenMisroutes | Gateway.EndpointCorrectedRoutes |

`Gateway.GetServers`, `Gateway.ServeServers` and `Gateway.ServersEndpoint`
take the port rule as a parameter. `Gateway.ListedPort` is the rule as
written and `Gateway.LaunchPort` the corrected one. The end-to-end lemmas in
`Launch` hold under either rule.

=== FILE: auth.dfy ===
/** The credential store of client/src/auth.py: a dictionary from API key
    to the group of server names it was issued for, kept in memory and
    written whole to a JSON file. Two stores exist at run time (the
    dashboard's and the API server's), both over the same file, so the
    file is an object of its own that several managers can share. */
module Auth {

  /** One dictionary value: `{"servers": [...], "created": <epoch seconds>}`. */
  datatype Credential = Credential(servers: seq<string>, created: int)

  type Store = map<string, Credential>

  /** What the keys file holds: nothing, a parseable dictionary, or text
      that `json.load` rejects (for example a write cut short). */
  datatype FileState = Absent | Stored(keys: Store) | Corrupt

  /** How one `save_keys` call ends: the write completes, `open` raises
      (nothing is touched), or the write fails after `open(..., "w")`
      has already truncated the file. */
  datatype WriteOutcome = Written | OpenFailed | WriteFailed

  /** `secrets.token_urlsafe(32)`: 32 random bytes in unpadded base64url,
      that is 43 characters of the URL-safe alphabet. */
  predicate IsUrlSafeToken(t: string) {
    |t| == 43 &&
    forall i :: 0 <= i < |t| ==>
      ('A' <= t[i] <= 'Z') || ('a' <= t[i] <= 'z') || ('0' <= t[i] <= '9') || t[i] == '-' || t[i] == '_'
  }

  /** What `load_keys` returns for a given file; `readOk` is false when
      opening or reading raises. Every failure gives the empty store. */
  function Loaded(f: FileState, readOk: bool): (r: Store)
    ensures f.Absent? || f.Corrupt? || !readOk ==> r == map[]
    ensures f.Stored? && readOk ==> r == f.keys
  {
    match f
    case Stored(keys) => if readOk then keys else map[]
    case _ => map[]
  }

  /** The file after `save_keys` of `keys` with the given outcome. */
  function Saved(f: FileState, keys: Store, outcome: WriteOutcome): (r: FileState)
    ensures outcome == Written ==> r == Stored(keys)
    ensures outcome == OpenFailed ==> r == f
    ensures outcome == WriteFailed ==> Loaded(r, true) == map[]
  {
    match outcome
    case Written => Stored(keys)
    case OpenFailed => f
    case WriteFailed => Corrupt
  }

  /** The store after `generate_key` has inserted `token`. */
  function Issue(keys: Store, token: string, names: seq<string>, now: int): (r: Store)
    ensures token in r && r[token] == Credential(names, now)
    ensures forall k :: k != token ==> (k in r <==> k in keys)
    ensures forall k :: k in keys && k != token ==> r[k] == keys[k]
  {
    keys[token := Credential(names, now)]
  }

  /** The store after `revoke_key` has deleted `key` (when it was there). */
  function Revoke(keys: Store, key: string): (r: Store)
    ensures key !in r
    ensures forall k :: k != key ==> (k in r <==> k in keys)
    ensures forall k :: k in r ==> r[k] == keys[k]
  {
    keys - {key}
  }

  /** The answer of `validate_key` against an already reloaded store. */
  function Lookup(keys: Store, key: string): (r: (bool, seq<string>))
    ensures r.0 <==> key in keys
    ensures r.0 ==> r.1 == keys[key].servers
    ensures !r.0 ==> r.1 == []
  {
    if key in keys then (true, keys[key].servers) else (false, [])
  }

  /** The JSON file `api_keys.json`, shared by every manager opened on it. */
  class KeyFile {
    var state: FileState

    constructor (initial: FileState)
      ensures state == initial
    {
      state := initial;
    }
  }

  class AuthManager {
    const file: KeyFile
    var keys: Store

    /** `__init__` loads the file once. */
    constructor (file: KeyFile, readOk: bool)
      ensures this.file == file
      ensures keys == Loaded(file.state, readOk)
    {
      this.file := file;
      keys := Loaded(file.state, readOk);
    }

    method LoadKeys(readOk: bool) returns (r: Store)
      ensures file.state.Absent? || file.state.Corrupt? || !readOk ==> r == map[]
      ensures file.state.Stored? && readOk ==> r == file.state.keys
    {
      if file.state.Stored? && readOk {
        r := file.state.keys;
      } else {
        r := map[];
      }
    }

    method SaveKeys(outcome: WriteOutcome)
      modifies file
      ensures file.state == Saved(old(file.state), keys, outcome)
    {
      match outcome {
        case Written => file.state := Stored(keys);
        case OpenFailed =>
        case WriteFailed => file.state := Corrupt;
      }
    }

    /** `generate_key`: `token` and `now` stand for `secrets.token_urlsafe(32)`
        and `int(time.time())`. Any list is accepted, the empty one too, and an
        existing entry under the same token would be overwritten. */
    method GenerateKey(names: seq<string>, token: string, now: int, outcome: WriteOutcome) returns (key: string)
      requires IsUrlSafeToken(token)
      modifies this, file
      ensures key == token
      ensures keys == Issue(old(keys), token, names, now)
      ensures file.state == Saved(old(file.state), keys, outcome)
    {
      key := token;
      keys := keys[key := Credential(names, now)];
      SaveKeys(outcome);
    }

    /** `validate_key`: memory is first replaced by what the file holds now. */
    method ValidateKey(key: string, readOk: bool) returns (valid: bool, servers: seq<string>)
      modifies this
      ensures keys == Loaded(file.state, readOk)
      ensures valid <==> key in keys
      ensures valid ==> servers == keys[key].servers
      ensures !valid ==> servers == []
    {
      keys := LoadKeys(readOk);
      if key in keys {
        valid, servers := true, keys[key].servers;
      } else {
        valid, servers := false, [];
      }
    }

    /** `revoke_key`: works on memory as it is, without reloading, and saves
        only when something was deleted. */
    method RevokeKey(key: string, outcome: WriteOutcome) returns (removed: bool)
      modifies this, file
      ensures removed <==> key in old(keys)
      ensures keys == Revoke(old(keys), key)
      ensures removed ==> file.state == Saved(old(file.state), keys, outcome)
      ensures !removed ==> file.state == old(file.state)
    {
      if key in keys {
        keys := keys - {key};
        SaveKeys(outcome);
        removed := true;
      } else {
        removed := false;
      }
    }

    /** `get_all_keys`. */
    method GetAllKeys() returns (r: Store)
      ensures r == keys
    {
      r := keys;
    }
  }

  /** Persisting and reloading with no mutation in between gives back the
      same token-to-credential mapping. */
  lemma PersistReload(f: FileState, keys: Store)
    ensures Loaded(Saved(f, keys, Written), true) == keys
  {
  }

  /** A fresh token grows the store by exactly one entry. */
  lemma IssueFreshAddsOne(keys: Store, token: string, names: seq<string>, now: int)
    requires token !in keys
    ensures |Issue(keys, token, names, now)| == |keys| + 1
    ensures Issue(keys, token, names, now) - {token} == keys
  {
    var r := Issue(keys, token, names, now);
    assert r.Keys == keys.Keys + {token};
    assert r - {token} == keys;
  }

  /** Issuing and then validating, with the save and the reload both
      succeeding and the file untouched in between, returns exactly the list
      the token was issued for. */
  lemma IssueThenValidate(f: FileState, keys: Store, token: string, names: seq<string>, now: int)
    ensures Lookup(Loaded(Saved(f, Issue(keys, token, names, now), Written), true), token) == (true, names)
  {
  }

  /** If the save after issuing fails, a validation that rereads the file
      cannot see a token the file did not already hold. */
  lemma IssueUnsavedIsInvisible(f: FileState, keys: Store, token: string, names: seq<string>, now: int, outcome: WriteOutcome, readOk: bool)
    requires outcome != Written
    requires f.Stored? ==> token !in f.keys
    ensures !Lookup(Loaded(Saved(f, Issue(keys, token, names, now), outcome), readOk), token).0
  {
  }

  /** After a saved revocation, validation of the same key fails. */
  lemma RevokeThenValidate(f: FileState, keys: Store, key: string, readOk: bool)
    ensures Lookup(Loaded(Saved(f, Revoke(keys, key), Written), readOk), key) == (false, [])
  {
  }

  /** Revoking twice: the second call finds nothing to delete and changes nothing. */
  lemma RevokeTwice(keys: Store, key: string)
    ensures key !in Revoke(keys, key)
    ensures Revoke(Revoke(keys, key), key) == Revoke(keys, key)
  {
  }
}

=== FILE: decimal.dfy ===
/** Python's `str()` on integers, used wherever the source formats a port
    number into text, with the parser that inverts it. */
module Decimal {

  predicate IsDigit(c: char) {
    '0' as int <= c as int <= '9' as int
  }

  function DigitChar(d: nat): (c: char)
    requires d < 10
    ensures IsDigit(c) && c as int - '0' as int == d
  {
    (d + '0' as int) as char
  }

  /** Decimal digits of `n`, most significant first, without leading zeros. */
  function NatToString(n: nat): (s: string)
    ensures |s| >= 1
    ensures forall i :: 0 <= i < |s| ==> IsDigit(s[i])
    ensures s[0] == '0' ==> n == 0
    decreases n
  {
    if n < 10 then [DigitChar(n)] else NatToString(n / 10) + [DigitChar(n % 10)]
  }

  /** `str(i)` for a Python int: a minus sign before the digits of a negative number. */
  function IntToString(i: int): (s: string)
    ensures |s| >= 1
    ensures i >= 0 <==> IsDigit(s[0])
  {
    if i < 0 then "-" + NatToString(-i) else NatToString(i)
  }

  /** Reads back a non-empty run of decimal digits. */
  function ParseNat(s: string): nat
    requires |s| >= 1 && forall i :: 0 <= i < |s| ==> IsDigit(s[i])
    decreases |s|
  {
    assert IsDigit(s[|s| - 1]);
    var d := s[|s| - 1] as int - '0' as int;
    if |s| == 1 then d else 10 * ParseNat(s[..|s| - 1]) + d
  }

  function ParseInt(s: string): int
    requires |s| >= 1
    requires s[0] == '-' ==> |s| >= 2
    requires forall i :: (if s[0] == '-' then 1 else 0) <= i < |s| ==> IsDigit(s[i])
  {
    if s[0] == '-' then -(ParseNat(s[1..]) as int) else ParseNat(s)
  }

  lemma {:induction false} ParseNatToString(n: nat)
    ensures ParseNat(NatToString(n)) == n
    decreases n
  {
    if n >= 10 {
      var s := NatToString(n);
      assert s[..|s| - 1] == NatToString(n / 10);
      ParseNatToString(n / 10);
    }
  }

  /** `str` on integers loses nothing: the text determines the number. */
  lemma IntToStringRoundTrip(i: int)
    ensures ParseInt(IntToString(i)) == i
  {
    if i < 0 {
      assert IntToString(i)[1..] == NatToString(-i);
      ParseNatToString(-i);
    } else {
      ParseNatToString(i);
    }
  }
}

=== FILE: gateway.dfy ===
/** The authorization gateway of client/src/api_server.py: the bearer-header
    check that turns a request into the list of server names its key was
    issued for, the `/api/servers` listing built from that list, the
    liveness probe, and the linear probe for the gateway's own port.

    The Python `hash()` the listing derives ports from, and whether a
    `bind` on a port succeeds, are parameters. */
module Gateway {
  import opened Wrappers
  import Decimal
  import Auth
  import Supervisor

  /** An `HTTPException`: a status code and its detail text. */
  datatype HttpError = HttpError(status: int, detail: string)

  const Unauthorized: int := 401
  const MissingKey: HttpError := HttpError(Unauthorized, "API key required")
  const InvalidKey: HttpError := HttpError(Unauthorized, "Invalid API key")

  const BearerPrefix: string := "Bearer "

  /** The key carried by an `Authorization` header: the text after a
      leading `Bearer `, otherwise the whole header. */
  function BearerKey(header: string): (key: string)
    ensures BearerPrefix <= header ==> BearerPrefix + key == header
    ensures !(BearerPrefix <= header) ==> key == header
  {
    if BearerPrefix <= header then header[|BearerPrefix|..] else header
  }

  /** Both header forms deliver an issued token unchanged: a URL-safe token
      holds no space, so it is never mistaken for a `Bearer ` header. */
  lemma BearerForms(token: string)
    requires Auth.IsUrlSafeToken(token)
    ensures BearerKey(BearerPrefix + token) == token
    ensures BearerKey(token) == token
  {
    assert (BearerPrefix + token)[|BearerPrefix|..] == token;
    assert token[6] != BearerPrefix[6];
  }

  /** `verify_api_key` against the store that `validate_key` has just
      reloaded: a missing or empty header is refused before any lookup, an
      unknown key is refused after it, and a known key yields exactly the
      list it was issued for. */
  function Authorize(authorization: Option<string>, keys: Auth.Store): (r: Result<seq<string>, HttpError>)
    ensures authorization.None? || authorization == Some("") ==> r == Failure(MissingKey)
    ensures authorization.Some? && authorization.value != "" ==>
      (r.Success? <==> BearerKey(authorization.value) in keys)
    ensures authorization.Some? && authorization.value != "" && r.Failure? ==> r.error == InvalidKey
    ensures r.Success? ==> r.value == keys[BearerKey(authorization.value)].servers
  {
    if authorization.None? || authorization.value == "" then Failure(MissingKey)
    else
      var (valid, names) := Auth.Lookup(keys, BearerKey(authorization.value));
      if valid then Success(names) else Failure(InvalidKey)
  }

  /** `verify_api_key` as a dependency: only a non-empty header makes the
      gateway's manager reload the key file. */
  method VerifyApiKey(auth: Auth.AuthManager, authorization: Option<string>, readOk: bool)
    returns (r: Result<seq<string>, HttpError>)
    modifies auth
    ensures authorization.None? || authorization == Some("") ==> auth.keys == old(auth.keys)
    ensures authorization.Some? && authorization.value != "" ==> auth.keys == Auth.Loaded(auth.file.state, readOk)
    ensures r == Authorize(authorization, auth.keys)
  {
    if authorization.None? || authorization.value == "" {
      return Failure(MissingKey);
    }
    var valid, names := auth.ValidateKey(BearerKey(authorization.value), readOk);
    if !valid {
      return Failure(InvalidKey);
    }
    return Success(names);
  }

  /** One element of the `servers` list of `/api/servers`. */
  datatype Transport = Transport(kind: string, url: string)
  datatype ServerEntry = ServerEntry(name: string, transport: Transport)
  datatype ServersResponse = ServersResponse(success: bool, servers: seq<ServerEntry>)

  const UrlHead: string := "http://0.0.0.0:"
  const UrlTail: string := "/sse"

  /** The SSE endpoint advertised for a port. */
  function SseUrl(port: int): (u: string)
    ensures UrlHead <= u && |u| > |UrlHead| + |UrlTail|
    ensures u[|u| - |UrlTail|..] == UrlTail
  {
    UrlHead + Decimal.IntToString(port) + UrlTail
  }

  /** The port can be read back from an advertised URL, so distinct ports
      give distinct URLs. */
  lemma SseUrlPort(port: int)
    ensures var u := SseUrl(port);
            Decimal.ParseInt(u[|UrlHead|..|u| - |UrlTail|]) == port
  {
    var u := SseUrl(port);
    assert u[|UrlHead|..|u| - |UrlTail|] == Decimal.IntToString(port);
    Decimal.IntToStringRoundTrip(port);
  }

  lemma SseUrlInjective(p: int, q: int)
    requires SseUrl(p) == SseUrl(q)
    ensures p == q
  {
    SseUrlPort(p);
    SseUrlPort(q);
  }

  /** The entry listed for a name whose server is reached on `port`. */
  function Entry(name: string, port: int): ServerEntry
  {
    ServerEntry(name, Transport("sse", SseUrl(port)))
  }

  /** The port the listing uses for a name: `3000 + hash(name) % 1000`,
      whatever the configuration says. */
  function ListedPort(hash: string -> int): (port: string -> int)
    ensures forall n :: port(n) == Supervisor.HashPort(hash(n))
  {
    n => Supervisor.HashPort(hash(n))
  }

  /** The port the server's child was told to listen on: the configured
      `sse_port` if there is one, else the hashed port. */
  function LaunchPort(configs: map<string, Supervisor.ServerConfig>, hash: string -> int): (port: string -> int)
    ensures forall n :: n in configs ==> port(n) == Supervisor.SsePort(n, configs[n], hash)
  {
    n => if n in configs then Supervisor.SsePort(n, configs[n], hash) else Supervisor.HashPort(hash(n))
  }

  /** The authorized names that are configured, in the order of `names`,
      each listed with the port `port` assigns it. */
  function Listing(names: seq<string>, configs: map<string, Supervisor.ServerConfig>, port: string -> int): (r: seq<ServerEntry>)
    ensures |r| <= |names|
    ensures forall e :: e in r ==> e.name in names && e.name in configs && e == Entry(e.name, port(e.name))
    ensures forall n :: n in names && n in configs ==> Entry(n, port(n)) in r
  {
    if names == [] then []
    else
      var init := names[..|names| - 1];
      var last := names[|names| - 1];
      assert forall n :: n in names ==> n in init || n == last;
      Listing(init, configs, port) + (if last in configs then [Entry(last, port(last))] else [])
  }

  /** The listing of a concatenation is the concatenation of the listings:
      the order of the authorized list is kept. */
  lemma {:induction false} ListingAppend(a: seq<string>, b: seq<string>, configs: map<string, Supervisor.ServerConfig>, port: string -> int)
    ensures Listing(a + b, configs, port) == Listing(a, configs, port) + Listing(b, configs, port)
    decreases |b|
  {
    if b == [] {
      assert a + b == a;
    } else {
      var binit := b[..|b| - 1];
      var last := b[|b| - 1];
      var tail := if last in configs then [Entry(last, port(last))] else [];
      assert (a + b)[..|a + b| - 1] == a + binit;
      assert (a + b)[|a + b| - 1] == last;
      assert Listing(a + b, configs, port) == Listing(a + binit, configs, port) + tail;
      assert Listing(b, configs, port) == Listing(binit, configs, port) + tail;
      ListingAppend(a, binit, configs, port);
    }
  }

  /** Walking one more authorized name appends its entry when it is configured. */
  lemma ListingStep(names: seq<string>, i: nat, configs: map<string, Supervisor.ServerConfig>, port: string -> int)
    requires i < |names|
    ensures Listing(names[..i + 1], configs, port) ==
      Listing(names[..i], configs, port) + (if names[i] in configs then [Entry(names[i], port(names[i]))] else [])
  {
    assert names[..i + 1][..i] == names[..i];
  }

  /** `get_servers`: the append loop over the authorized names, with the
      port rule as a parameter: `ListedPort` is the rule as written,
      `LaunchPort` the corrected one. */
  method GetServers(names: seq<string>, configs: map<string, Supervisor.ServerConfig>, port: string -> int)
    returns (response: ServersResponse)
    ensures response.success
    ensures response.servers == Listing(names, configs, port)
  {
    var authorized: seq<ServerEntry> := [];
    var i := 0;
    while i < |names|
      invariant 0 <= i <= |names|
      invariant authorized == Listing(names[..i], configs, port)
    {
      var name := names[i];
      ListingStep(names, i, configs, port);
      if name in configs {
        authorized := authorized + [Entry(name, port(name))];
      }
      i := i + 1;
    }
    assert names[..i] == names;
    response := ServersResponse(true, authorized);
  }

  /** A request to `/api/servers` from header to response, under the port
      rule `port`: nothing is listed for a refused request, and an accepted
      one lists exactly the names that the presented key was issued for and
      that are configured, each at the URL of its port. With
      `ListedPort(hash)` this is the endpoint as written; with
      `LaunchPort(configs, hash)` the corrected one. */
  function ServeServers(authorization: Option<string>, keys: Auth.Store, configs: map<string, Supervisor.ServerConfig>,
                        port: string -> int): (r: Result<ServersResponse, HttpError>)
    ensures Authorize(authorization, keys).Failure? ==> r == Failure(Authorize(authorization, keys).error)
    ensures Authorize(authorization, keys).Success? ==>
      r.Success? && r.value.servers == Listing(Authorize(authorization, keys).value, configs, port)
    ensures r.Success? ==> r.value.success
    ensures r.Success? ==>
      forall e :: e in r.value.servers ==>
        e.name in keys[BearerKey(authorization.value)].servers && e.name in configs &&
        e.transport.url == SseUrl(port(e.name))
    ensures r.Success? ==>
      forall n :: n in keys[BearerKey(authorization.value)].servers && n in configs ==>
        Entry(n, port(n)) in r.value.servers
  {
    match Authorize(authorization, keys)
    case Failure(err) => Failure(err)
    case Success(names) => Success(ServersResponse(true, Listing(names, configs, port)))
  }

  /** `/api/servers` with its `verify_api_key` dependency: the gateway's
      manager reloads the key file, and the listing is built only for an
      accepted key. */
  method ServersEndpoint(auth: Auth.AuthManager, authorization: Option<string>, readOk: bool,
                         configs: map<string, Supervisor.ServerConfig>, port: string -> int)
    returns (r: Result<ServersResponse, HttpError>)
    modifies auth
    ensures authorization.None? || authorization == Some("") ==> auth.keys == old(auth.keys)
    ensures authorization.Some? && authorization.value != "" ==> auth.keys == Auth.Loaded(auth.file.state, readOk)
    ensures r == ServeServers(authorization, auth.keys, configs, port)
  {
    var names := VerifyApiKey(auth, authorization, readOk);
    if names.Failure? {
      return Failure(names.error);
    }
    var response := GetServers(names.value, configs, port);
    return Success(response);
  }

  /** The URL the listing advertises for a server with a configured
      `sse_port` outside 3000..3999 is not the one its child listens on:
      with `sse_port` 8080, say, the child gets `--sse-port=8080` while the
      listing names a port between 3000 and 3999. */
  lemma ListedPortIgnoresSsePort(name: string, cfg: Supervisor.ServerConfig, hash: string -> int)
    requires cfg.ssePort.Some? && !(Supervisor.PortBase <= cfg.ssePort.value < Supervisor.PortBase + Supervisor.PortWindow)
    ensures Entry(name, ListedPort(hash)(name)).transport.url != SseUrl(Supervisor.SsePort(name, cfg, hash))
  {
    if SseUrl(ListedPort(hash)(name)) == SseUrl(Supervisor.SsePort(name, cfg, hash)) {
      SseUrlInjective(ListedPort(hash)(name), Supervisor.SsePort(name, cfg, hash));
    }
  }

  /** The endpoint as written sends a client of an authorized server whose
      `sse_port` lies outside 3000..3999 (8080, say) to a URL its child does
      not listen on. */
  lemma EndpointAsWrittenMisroutes(authorization: Option<string>, keys: Auth.Store,
                                   configs: map<string, Supervisor.ServerConfig>, hash: string -> int, n: string)
    requires Authorize(authorization, keys).Success?
    requires n in Authorize(authorization, keys).value && n in configs && configs[n].ssePort.Some? &&
             !(Supervisor.PortBase <= configs[n].ssePort.value < Supervisor.PortBase + Supervisor.PortWindow)
    ensures var r := ServeServers(authorization, keys, configs, ListedPort(hash));
      r.Success? &&
      (exists e :: e in r.value.servers && e.name == n) &&
      forall e :: e in r.value.servers && e.name == n ==>
        e.transport.url != SseUrl(Supervisor.SsePort(n, configs[n], hash))
  {
    var r := ServeServers(authorization, keys, configs, ListedPort(hash));
    assert Entry(n, ListedPort(hash)(n)) in r.value.servers;
    ListedPortIgnoresSsePort(n, configs[n], hash);
  }

  /** With the launch port, every advertised URL carries exactly the port
      given to the child in its `--sse-port=` flag. */
  lemma LaunchPortMatchesChild(names: seq<string>, configs: map<string, Supervisor.ServerConfig>, host: Supervisor.Host)
    ensures forall e :: e in Listing(names, configs, LaunchPort(configs, host.hash)) ==>
      var plan := Supervisor.PlannedSpawn(e.name, configs[e.name], host);
      var u := e.transport.url;
      plan.Success? ==>
        var flag := plan.value.argv[2];
        |flag| > |Supervisor.PortFlag| &&
        Decimal.ParseInt(flag[|Supervisor.PortFlag|..]) == Decimal.ParseInt(u[|UrlHead|..|u| - |UrlTail|])
  {
    forall e | e in Listing(names, configs, LaunchPort(configs, host.hash))
      ensures var plan := Supervisor.PlannedSpawn(e.name, configs[e.name], host);
              var u := e.transport.url;
              plan.Success? ==>
                var flag := plan.value.argv[2];
                |flag| > |Supervisor.PortFlag| &&
                Decimal.ParseInt(flag[|Supervisor.PortFlag|..]) == Decimal.ParseInt(u[|UrlHead|..|u| - |UrlTail|])
    {
      var cfg := configs[e.name];
      var plan := Supervisor.PlannedSpawn(e.name, cfg, host);
      var p := Supervisor.SsePort(e.name, cfg, host.hash);
      SseUrlPort(p);
      if plan.Success? {
        Supervisor.LaunchPortReadBack(host.which("mcp-proxy").value, p,
                                      host.which(cfg.command.value).value, cfg.args.value);
      }
    }
  }

  /** The corrected endpoint sends every client to the port in its
      server's `--sse-port=` flag. */
  lemma EndpointCorrectedRoutes(authorization: Option<string>, keys: Auth.Store,
                                configs: map<string, Supervisor.ServerConfig>, host: Supervisor.Host)
    ensures var r := ServeServers(authorization, keys, configs, LaunchPort(configs, host.hash));
      r.Success? ==>
        forall e :: e in r.value.servers ==>
          var plan := Supervisor.PlannedSpawn(e.name, configs[e.name], host);
          var u := e.transport.url;
          plan.Success? ==>
            var flag := plan.value.argv[2];
            |flag| > |Supervisor.PortFlag| &&
            Decimal.ParseInt(flag[|Supervisor.PortFlag|..]) == Decimal.ParseInt(u[|UrlHead|..|u| - |UrlTail|])
  {
    var r := ServeServers(authorization, keys, configs, LaunchPort(configs, host.hash));
    if r.Success? {
      LaunchPortMatchesChild(Authorize(authorization, keys).value, configs, host);
    }
  }

  /** `health_check`: the answer depends on nothing. */
  function HealthCheck(): (r: map<string, string>)
    ensures r.Keys == {"status"} && r["status"] == "ok"
  {
    map["status" := "ok"]
  }

  const DefaultStartPort: int := 8000
  const DefaultMaxAttempts: int := 100

  /** Why `find_free_port` gives up: every port of the range refused the
      bind (`IOError`), or a port outside 0..65535 was reached, where
      `bind` raises `OverflowError`, which the loop does not catch. */
  datatype PortError = NoFreePorts | PortOutOfRange(port: int)

  predicate IsPort(p: int) {
    0 <= p <= 65535
  }

  /** The outcome of probing `start`, `start + 1`, ... for `count` ports:
      the first port that binds, unless an invalid port or the end of the
      range comes first. */
  function FirstFree(start: int, count: int, bindOk: int -> bool): (r: Result<int, PortError>)
    decreases count
    ensures r.Success? ==> start <= r.value < start + count && IsPort(r.value) && bindOk(r.value)
    ensures r.Success? ==> forall q :: start <= q < r.value ==> IsPort(q) && !bindOk(q)
    ensures r == Failure(NoFreePorts) ==> forall q :: start <= q < start + count ==> IsPort(q) && !bindOk(q)
    ensures r.Failure? && r.error.PortOutOfRange? ==>
      start <= r.error.port < start + count && !IsPort(r.error.port) &&
      forall q :: start <= q < r.error.port ==> IsPort(q) && !bindOk(q)
  {
    if count <= 0 then Failure(NoFreePorts)
    else if !IsPort(start) then Failure(PortOutOfRange(start))
    else if bindOk(start) then Success(start)
    else FirstFree(start + 1, count - 1, bindOk)
  }

  /** The probe always ends in one of the three ways, and a range of valid
      ports with a bindable one in it yields a port. */
  lemma FirstFreeFinds(start: int, count: int, bindOk: int -> bool, p: int)
    requires start <= p < start + count && bindOk(p)
    requires forall q :: start <= q <= p ==> IsPort(q)
    ensures FirstFree(start, count, bindOk).Success?
    ensures FirstFree(start, count, bindOk).value <= p
  {
  }

  /** With the default range 8000..8099 every probed port is valid, so the
      probe ends with a bindable port or `NoFreePorts`, never out of range. */
  lemma DefaultProbeInRange(bindOk: int -> bool)
    ensures var r := FirstFree(DefaultStartPort, DefaultMaxAttempts, bindOk);
            r.Success? || r == Failure(NoFreePorts)
    ensures var r := FirstFree(DefaultStartPort, DefaultMaxAttempts, bindOk);
            r.Success? ==> DefaultStartPort <= r.value < DefaultStartPort + DefaultMaxAttempts
  {
  }

  /** `find_free_port`: the bounded `for` loop with its early return; the
      range defaults to 8000..8099. */
  method FindFreePort(bindOk: int -> bool, start: int := DefaultStartPort, maxAttempts: int := DefaultMaxAttempts)
    returns (r: Result<int, PortError>)
    ensures r == FirstFree(start, maxAttempts, bindOk)
  {
    var port := start;
    while port < start + maxAttempts
      invariant start <= port && (port <= start + maxAttempts || maxAttempts <= 0)
      invariant FirstFree(port, start + maxAttempts - port, bindOk) == FirstFree(start, maxAttempts, bindOk)
      decreases start + maxAttempts - port
    {
      if !IsPort(port) {
        return Failure(PortOutOfRange(port));
      }
      if bindOk(port) {
        return Success(port);
      }
      port := port + 1;
    }
    return Failure(NoFreePorts);
  }
}

=== FILE: launch.dfy ===
/** The dashboard's launch button (client/app.py:138-146) over the model:
    the selected servers are started, and a key is issued for the list
    that actually started, unless that list is empty. The API gateway runs
    its own credential manager over the same key file. */
module Launch {
  import opened Wrappers
  import Auth
  import Supervisor
  import Gateway

  /** Start the selection; issue `token` for the started list when it is
      non-empty. */
  method LaunchSelected(manager: Supervisor.ServerManager, auth: Auth.AuthManager,
                        configs: map<string, Supervisor.ServerConfig>, host: Supervisor.Host,
                        exited: string -> bool, spawnOk: string -> bool,
                        token: string, now: int, outcome: Auth.WriteOutcome)
    returns (started: seq<string>, key: Option<string>)
    requires manager.Valid()
    requires Auth.IsUrlSafeToken(token)
    modifies manager`servers, manager`order, manager`Position, manager`Repr, manager.Repr`process, auth, auth.file
    ensures manager.Valid()
    ensures forall n :: n in manager.servers <==> n in old(manager.servers) || (n in manager.selected && n in configs)
    ensures old(manager.order) <= manager.order
    ensures forall n :: n in manager.order[|old(manager.order)|..] <==> n in manager.servers && n !in old(manager.servers)
    ensures forall n :: n in old(manager.servers) ==> manager.servers[n] == old(manager.servers[n])
    ensures forall n :: n in manager.servers && n !in old(manager.servers) ==> manager.servers[n].session.None?
    ensures forall n :: n in started <==> n in manager.selected && n in configs && manager.servers[n].process.Some?
    ensures forall i, j :: 0 <= i < j < |started| ==> started[i] != started[j]
    ensures forall n :: n in manager.selected && n in configs ==>
      manager.servers[n].process ==
        Supervisor.AfterStart(Supervisor.HandleOf(old(manager.Handles()), n), exited(n), spawnOk(n),
                              Supervisor.PlannedSpawn(n, Supervisor.ConfigFor(old(manager.servers), configs, n), host))
    ensures forall n :: n in old(manager.servers) && !(n in manager.selected && n in configs) ==>
      manager.servers[n].process == old(manager.servers[n].process)
    ensures started == [] ==> key.None? && auth.keys == old(auth.keys) && auth.file.state == old(auth.file.state)
    ensures started != [] ==>
      key == Some(token) &&
      auth.keys == Auth.Issue(old(auth.keys), token, started, now) &&
      auth.file.state == Auth.Saved(old(auth.file.state), auth.keys, outcome)
  {
    started := manager.StartSelectedServers(configs, host, exited, spawnOk);
    if started == [] {
      return started, None;
    }
    var issued := auth.GenerateKey(started, token, now, outcome);
    key := Some(issued);
  }

  /** A key issued at launch and saved, presented to the gateway in either
      header form after it reloads the file, authorizes exactly the started
      list, and the gateway then lists no server outside the selection and
      the configuration. */
  lemma LaunchedKeyScope(f: Auth.FileState, keys: Auth.Store, token: string, started: seq<string>, now: int,
                         selected: set<string>, configs: map<string, Supervisor.ServerConfig>,
                         gatewayConfigs: map<string, Supervisor.ServerConfig>, port: string -> int)
    requires Auth.IsUrlSafeToken(token)
    requires forall n :: n in started ==> n in selected && n in configs
    ensures var store := Auth.Loaded(Auth.Saved(f, Auth.Issue(keys, token, started, now), Auth.Written), true);
      Gateway.Authorize(Some(Gateway.BearerPrefix + token), store) == Success(started) &&
      Gateway.Authorize(Some(token), store) == Success(started)
    ensures var store := Auth.Loaded(Auth.Saved(f, Auth.Issue(keys, token, started, now), Auth.Written), true);
      var r := Gateway.ServeServers(Some(Gateway.BearerPrefix + token), store, gatewayConfigs, port);
      r.Success? &&
      forall e :: e in r.value.servers ==> e.name in selected && e.name in configs && e.name in gatewayConfigs
  {
    var store := Auth.Loaded(Auth.Saved(f, Auth.Issue(keys, token, started, now), Auth.Written), true);
    Auth.IssueThenValidate(f, keys, token, started, now);
    Gateway.BearerForms(token);
    assert token != "";
    assert Gateway.BearerPrefix + token != "";
  }

  /** Once the key is revoked and the revocation saved, the gateway refuses
      it in either header form. */
  lemma RevokedKeyRefused(f: Auth.FileState, keys: Auth.Store, token: string, readOk: bool)
    requires Auth.IsUrlSafeToken(token)
    ensures var store := Auth.Loaded(Auth.Saved(f, Auth.Revoke(keys, token), Auth.Written), readOk);
      Gateway.Authorize(Some(Gateway.BearerPrefix + token), store) == Failure(Gateway.InvalidKey) &&
      Gateway.Authorize(Some(token), store) == Failure(Gateway.InvalidKey)
  {
    Auth.RevokeThenValidate(f, keys, token, readOk);
    Gateway.BearerForms(token);
    assert token != "";
    assert Gateway.BearerPrefix + token != "";
  }
}

=== FILE: server.dfy ===
/** The process supervisor of client/src/server.py: a `Server` owns at most
    one `mcp-proxy` child process, and a `ServerManager` keeps the servers it
    has created by name, together with the current selection.

    Everything the operating system decides is a parameter: where
    `shutil.which` finds an executable, the per-process salted `hash()`,
    the inherited environment (all three in `Host`), whether `poll()` sees
    the child gone (`exited`), whether `Popen` succeeds (`spawnOk`), how
    closing the session stack and terminating the child end. */
module Supervisor {
  import opened Wrappers
  import Decimal

  /** One entry of the `mcpServers` configuration. A key that is missing
      from the JSON object is `None`; `sse_port` is optional by design,
      while a missing `command` or `args` makes `start` raise `KeyError`
      inside its `try` and so return false. */
  datatype ServerConfig = ServerConfig(
    command: Option<string>,
    args: Option<seq<string>>,
    env: Option<map<string, string>>,
    ssePort: Option<int>)

  /** The host as `start` sees it. */
  datatype Host = Host(
    which: string -> Option<string>,
    hash: string -> int,
    environ: map<string, string>)

  /** A spawned `mcp-proxy` child, identified by what it was started with. */
  datatype Child = Child(argv: seq<string>, env: map<string, string>)

  /** An open client session (never opened by this module, only closed). */
  datatype Session = Session(id: nat)

  /** Why `start` returns false for a server that is not already running. */
  datatype StartFailure = ProxyNotFound | MissingKey(key: string) | SpawnRaised

  /** How `stop` ends once a child exists: it exits within the grace period,
      it is killed after `wait(timeout=5)` expires, or `terminate`/`kill`
      raises. */
  datatype StopPath = Terminated | KilledAfterTimeout | SignalRaised

  const PortBase: int := 3000
  const PortWindow: int := 1000

  /** `3000 + hash(name) % 1000` with Python's floored `%`; Dafny's `%` agrees
      with it for a positive divisor, also when the hash is negative. */
  function HashPort(h: int): (p: int)
    ensures PortBase <= p < PortBase + PortWindow
    ensures (p - PortBase) % PortWindow == h % PortWindow
  {
    PortBase + h % PortWindow
  }

  /** The port rule: `config.get("sse_port", 3000 + hash(name) % 1000)`. */
  function SsePort(name: string, cfg: ServerConfig, hash: string -> int): (p: int)
    ensures cfg.ssePort.Some? ==> p == cfg.ssePort.value
    ensures cfg.ssePort.None? ==> PortBase <= p < PortBase + PortWindow
    ensures cfg.ssePort.None? ==> (p - PortBase) % PortWindow == hash(name) % PortWindow
  {
    if cfg.ssePort.Some? then cfg.ssePort.value else HashPort(hash(name))
  }

  /** The child's environment: a copy of the inherited one, updated with the
      configured overrides when the `env` key is present. */
  function ChildEnv(inherited: map<string, string>, overrides: Option<map<string, string>>): (e: map<string, string>)
    ensures overrides.None? ==> e == inherited
    ensures overrides.Some? ==> e.Keys == inherited.Keys + overrides.value.Keys
    ensures overrides.Some? ==> forall k :: k in overrides.value ==> e[k] == overrides.value[k]
    ensures overrides.Some? ==> forall k :: k in inherited && k !in overrides.value ==> e[k] == inherited[k]
  {
    if overrides.Some? then inherited + overrides.value else inherited
  }

  const PortFlag: string := "--sse-port="

  /** The argument vector handed to `Popen`. */
  function LaunchArgv(proxy: string, port: int, startCommand: string, args: seq<string>): (argv: seq<string>)
    ensures |argv| == 7 + |args|
    ensures argv[0] == proxy
    ensures argv[1] == "--allow-origin='*'"
    ensures argv[2] == PortFlag + Decimal.IntToString(port)
    ensures argv[3] == "--sse-host=0.0.0.0"
    ensures argv[4] == "--pass-environment"
    ensures argv[5] == "--"
    ensures argv[6] == startCommand
    ensures argv[7..] == args
  {
    [proxy, "--allow-origin='*'", PortFlag + Decimal.IntToString(port), "--sse-host=0.0.0.0",
     "--pass-environment", "--", startCommand] + args
  }

  /** The port flag of a launch vector can be read back as the port. */
  lemma LaunchPortReadBack(proxy: string, port: int, startCommand: string, args: seq<string>)
    ensures var flag := LaunchArgv(proxy, port, startCommand, args)[2];
            |flag| > |PortFlag| && flag[..|PortFlag|] == PortFlag &&
            Decimal.ParseInt(flag[|PortFlag|..]) == port
  {
    var flag := LaunchArgv(proxy, port, startCommand, args)[2];
    assert flag[|PortFlag|..] == Decimal.IntToString(port);
    Decimal.IntToStringRoundTrip(port);
  }

  /** The child `start` would spawn for a server that is not running, or
      why it cannot. An unresolvable `command` is only reported by a print;
      the `None` it leaves in the argument vector then makes `Popen` raise. */
  function PlannedSpawn(name: string, cfg: ServerConfig, host: Host): (r: Result<Child, StartFailure>)
    ensures host.which("mcp-proxy").None? ==> r == Failure(ProxyNotFound)
    ensures r.Success? <==>
      host.which("mcp-proxy").Some? && cfg.command.Some? && cfg.args.Some? &&
      host.which(cfg.command.value).Some?
    ensures r.Success? ==>
      r.value.argv == LaunchArgv(host.which("mcp-proxy").value, SsePort(name, cfg, host.hash),
                                 host.which(cfg.command.value).value, cfg.args.value) &&
      r.value.env == ChildEnv(host.environ, cfg.env)
  {
    var proxy := host.which("mcp-proxy");
    if proxy.None? then Failure(ProxyNotFound)
    else if cfg.command.None? then Failure(MissingKey("command"))
    else if cfg.args.None? then Failure(MissingKey("args"))
    else
      var startCommand := host.which(cfg.command.value);
      if startCommand.None? then Failure(SpawnRaised)
      else Success(Child(LaunchArgv(proxy.value, SsePort(name, cfg, host.hash), startCommand.value, cfg.args.value),
                         ChildEnv(host.environ, cfg.env)))
  }

  /** The process handle after `start`, from the handle before it. */
  function AfterStart(before: Option<Child>, exited: bool, spawnOk: bool, plan: Result<Child, StartFailure>): (after: Option<Child>)
    ensures before.Some? && !exited ==> after == before
    ensures (before.None? || exited) && plan.Failure? ==> after.None?
    ensures (before.None? || exited) && plan.Success? ==> after == (if spawnOk then Some(plan.value) else None)
  {
    if before.Some? && !exited then before
    else if plan.Success? && spawnOk then Some(plan.value)
    else None
  }

  /** The process handle after `stop`. */
  function AfterStop(before: Option<Child>, path: StopPath): (after: Option<Child>)
    ensures before.None? ==> after.None?
    ensures path != SignalRaised ==> after.None?
    ensures path == SignalRaised ==> after == before
  {
    if path == SignalRaised then before else None
  }

  /** The session after `cleanup`: cleared unless closing the exit stack raised. */
  function AfterCleanup(before: Option<Session>, closeOk: bool): (after: Option<Session>)
    ensures closeOk ==> after.None?
    ensures !closeOk ==> after == before
  {
    if closeOk then None else before
  }

  /** Starting a server that is running spawns nothing and keeps its child. */
  lemma StartIsIdempotent(c: Child, spawnOk: bool, plan: Result<Child, StartFailure>)
    ensures AfterStart(Some(c), false, spawnOk, plan) == Some(c)
    ensures AfterStart(AfterStart(Some(c), false, spawnOk, plan), false, spawnOk, plan) == Some(c)
  {
  }

  class Server {
    const name: string
    const config: ServerConfig
    var process: Option<Child>
    var session: Option<Session>

    constructor (name: string, config: ServerConfig)
      ensures this.name == name && this.config == config
      ensures process.None? && session.None?
    {
      this.name := name;
      this.config := config;
      process := None;
      session := None;
    }

    /** `is_running`: a child that `poll` reports gone is forgotten here. */
    method IsRunning(exited: bool) returns (running: bool)
      modifies this`process
      ensures running <==> old(process).Some? && !exited
      ensures process == (if running then old(process) else None)
    {
      if process.None? {
        return false;
      }
      if exited {
        process := None;
        return false;
      }
      return true;
    }

    /** `start`. */
    method Start(host: Host, exited: bool, spawnOk: bool) returns (ok: bool)
      modifies this`process
      ensures process == AfterStart(old(process), exited, spawnOk, PlannedSpawn(name, config, host))
      ensures ok <==> process.Some?
    {
      if process.Some? {
        var running := IsRunning(exited);
        if running {
          return true;
        }
      }
      var proxyCommand := host.which("mcp-proxy");
      if proxyCommand.None? {
        return false;
      }
      var ssePort := SsePort(name, config, host.hash);
      if config.command.None? {
        return false;
      }
      var startCommand := host.which(config.command.value);
      if config.args.None? {
        return false;
      }
      var env := ChildEnv(host.environ, config.env);
      if startCommand.None? || !spawnOk {
        return false;
      }
      process := Some(Child(LaunchArgv(proxyCommand.value, ssePort, startCommand.value, config.args.value), env));
      return true;
    }

    /** `cleanup`. */
    method Cleanup(closeOk: bool)
      modifies this`session
      ensures session == AfterCleanup(old(session), closeOk)
    {
      if closeOk {
        session := None;
      }
    }

    /** `stop`: cleanup always runs first. */
    method Stop(closeOk: bool, path: StopPath) returns (ok: bool)
      modifies this
      ensures session == AfterCleanup(old(session), closeOk)
      ensures process == AfterStop(old(process), path)
      ensures ok <==> old(process).None? || path != SignalRaised
    {
      Cleanup(closeOk);
      if process.None? {
        return true;
      }
      if path == SignalRaised {
        return false;
      }
      process := None;
      return true;
    }
  }

  /** `h[n]`, or no handle for a name the registry has not seen. */
  function HandleOf(h: map<string, Option<Child>>, n: string): Option<Child> {
    if n in h then h[n] else None
  }

  /** The names in `order` whose handle in `snap` is present and not reported
      gone, in the order given: what `get_running_servers` lists. */
  function LiveNames(order: seq<string>, snap: map<string, Option<Child>>, exited: string -> bool): seq<string>
    requires forall i :: 0 <= i < |order| ==> order[i] in snap
  {
    if |order| == 0 then []
    else
      var last := order[|order| - 1];
      LiveNames(order[..|order| - 1], snap, exited) + (if snap[last].Some? && !exited(last) then [last] else [])
  }

  /** A name is listed exactly when it is known, has a handle and is not
      reported gone; nothing else is listed. */
  lemma {:induction false} LiveNamesMembers(order: seq<string>, snap: map<string, Option<Child>>, exited: string -> bool, n: string)
    requires forall i :: 0 <= i < |order| ==> order[i] in snap
    ensures n in LiveNames(order, snap, exited) <==> n in order && snap[n].Some? && !exited(n)
  {
    if |order| > 0 {
      var init := order[..|order| - 1];
      LiveNamesMembers(init, snap, exited, n);
      assert order == init + [order[|order| - 1]];
    }
  }

  /** Walking one more name of `order` appends it exactly when it is live. */
  lemma LiveNamesStep(order: seq<string>, i: nat, snap: map<string, Option<Child>>, exited: string -> bool)
    requires i < |order|
    requires forall k :: 0 <= k < |order| ==> order[k] in snap
    ensures LiveNames(order[..i + 1], snap, exited) ==
      LiveNames(order[..i], snap, exited) + (if snap[order[i]].Some? && !exited(order[i]) then [order[i]] else [])
  {
    assert order[..i + 1][..i] == order[..i];
  }

  /** Listing repeats no name when the order it walks repeats none. */
  lemma {:induction false} LiveNamesDistinct(order: seq<string>, snap: map<string, Option<Child>>, exited: string -> bool)
    requires forall i :: 0 <= i < |order| ==> order[i] in snap
    requires forall i, j :: 0 <= i < j < |order| ==> order[i] != order[j]
    ensures var r := LiveNames(order, snap, exited);
            forall i, j :: 0 <= i < j < |r| ==> r[i] != r[j]
  {
    if |order| > 0 {
      var init := order[..|order| - 1];
      var last := order[|order| - 1];
      LiveNamesDistinct(init, snap, exited);
      LiveNamesMembers(init, snap, exited, last);
      assert last !in init;
    }
  }

  /** The configuration a name is started with: the one its existing
      `Server` was built from, else the one given now. */
  function ConfigFor(orig: map<string, Server>, configs: map<string, ServerConfig>, n: string): ServerConfig
    requires n in orig || n in configs
  {
    if n in orig then orig[n].config else configs[n]
  }

  /** The loop state of `start_selected_servers` after the names in
      `targets` have been started, from the handles `before` it began with:
      `p` holds each handle, `started` the names reported started. */
  ghost predicate StartProgress(orig: map<string, Server>, configs: map<string, ServerConfig>, before: map<string, Option<Child>>,
                                p: map<string, Option<Child>>, targets: set<string>, started: seq<string>,
                                host: Host, exited: string -> bool, spawnOk: string -> bool)
  {
    (forall n :: n in p <==> n in before || n in targets) &&
    (forall i, j :: 0 <= i < j < |started| ==> started[i] != started[j]) &&
    (forall n :: n in started <==> n in targets && p[n].Some?) &&
    (forall n :: n in before && n !in targets ==> p[n] == before[n]) &&
    (forall n :: n in targets ==>
       n in configs &&
       p[n] == AfterStart(HandleOf(before, n), exited(n), spawnOk(n), PlannedSpawn(n, ConfigFor(orig, configs, n), host)))
  }

  /** One more name started keeps the loop state. */
  lemma StartProgressStep(orig: map<string, Server>, configs: map<string, ServerConfig>, before: map<string, Option<Child>>,
                          p: map<string, Option<Child>>, targets: set<string>, started: seq<string>,
                          host: Host, exited: string -> bool, spawnOk: string -> bool,
                          name: string, h: Option<Child>, ok: bool)
    requires StartProgress(orig, configs, before, p, targets, started, host, exited, spawnOk)
    requires name !in targets && name in configs
    requires h == AfterStart(HandleOf(p, name), exited(name), spawnOk(name), PlannedSpawn(name, ConfigFor(orig, configs, name), host))
    requires ok <==> h.Some?
    ensures StartProgress(orig, configs, before, p[name := h], targets + {name}, if ok then started + [name] else started, host, exited, spawnOk)
  {
  }

  /** A registry is well formed when every server is filed under its own
      name and owned by the registry, and `order` lists each name once:
      `position` says where. */
  ghost predicate WellFormed(servers: map<string, Server>, order: seq<string>, position: map<string, nat>, repr: set<Server>) {
    (forall n :: n in servers ==>
       servers[n] in repr && servers[n].name == n && n in position && position[n] < |order| && order[position[n]] == n) &&
    (forall i :: 0 <= i < |order| ==> order[i] in servers && order[i] in position && position[order[i]] == i)
  }

  /** When a well-formed registry grows into another one by appending to
      its order, the appended names are exactly the new ones. */
  lemma OrderGrows(s0: map<string, Server>, o0: seq<string>, p0: map<string, nat>, r0: set<Server>,
                   s1: map<string, Server>, o1: seq<string>, p1: map<string, nat>, r1: set<Server>)
    requires WellFormed(s0, o0, p0, r0) && WellFormed(s1, o1, p1, r1)
    requires o0 <= o1
    ensures forall n :: n in o1[|o0|..] <==> n in s1 && n !in s0
  {
    forall n | n in s0
      ensures n in s1 && p1[n] == p0[n] < |o0|
    {
      assert o1[p0[n]] == o0[p0[n]];
    }
    assert forall i :: 0 <= i < |o0| ==> o1[i] == o0[i] && o0[i] in s0;
    forall n
      ensures n in o1[|o0|..] <==> n in s1 && n !in s0
    {
      if n in o1[|o0|..] {
        var k :| |o0| <= k < |o1| && o1[k] == n;
        assert p1[n] == k;
      }
      if n in s1 && n !in s0 {
        var k := p1[n];
        assert o1[|o0|..][k - |o0|] == n;
      }
    }
  }

  class ServerManager {
    var servers: map<string, Server>
    /** The keys of `servers` in insertion order, the order Python iterates a dict in. */
    var order: seq<string>
    var selected: set<string>
    /** The `Server` objects the registry owns. */
    ghost var Repr: set<Server>
    /** Where each name stands in `order`. */
    ghost var Position: map<string, nat>

    ghost predicate Valid()
      reads this
    {
      WellFormed(servers, order, Position, Repr)
    }

    /** Every known server's process handle. */
    ghost function Handles(): (h: map<string, Option<Child>>)
      reads this, Repr
      requires Valid()
      ensures h.Keys == servers.Keys
      ensures forall n :: n in servers ==> h[n] == servers[n].process
    {
      map n | n in servers :: servers[n].process
    }

    constructor ()
      ensures Valid()
      ensures servers == map[] && order == [] && selected == {}
    {
      servers := map[];
      order := [];
      selected := {};
      Repr := {};
      Position := map[];
    }

    /** `select_servers`: the selection is replaced, not extended. */
    method SelectServers(names: seq<string>)
      modifies this
      ensures selected == set n | n in names
      ensures servers == old(servers) && order == old(order) && Repr == old(Repr) && Position == old(Position)
    {
      selected := set n | n in names;
    }

    method GetSelectedServers() returns (r: set<string>)
      ensures r == selected
    {
      r := selected;
    }

    /** The first half of `start_server`: a name seen for the first time gets
        a stopped `Server` built from `config`, appended to the insertion order. */
    method Register(name: string, config: ServerConfig)
      requires Valid() && name !in servers
      modifies this`servers, this`order, this`Position, this`Repr
      ensures Valid() && fresh(Repr - old(Repr))
      ensures servers.Keys == old(servers).Keys + {name}
      ensures forall n :: n in old(servers) ==> servers[n] == old(servers[n])
      ensures order == old(order) + [name]
      ensures fresh(servers[name]) && servers[name].config == config
      ensures servers[name].process.None? && servers[name].session.None?
    {
      var s := new Server(name, config);
      servers, order, Position, Repr := servers[name := s], order + [name], Position[name := |order|], Repr + {s};
    }

    /** `start_server`: a `Server` is created only for a name seen for the
        first time, so a later call with a different configuration still
        starts the server built from the first one. */
    method StartServer(name: string, config: ServerConfig, host: Host, exited: bool, spawnOk: bool) returns (ok: bool)
      requires Valid()
      modifies this`servers, this`order, this`Position, this`Repr, (if name in servers then {servers[name]} else {})`process
      ensures Valid() && fresh(Repr - old(Repr))
      ensures servers.Keys == old(servers).Keys + {name}
      ensures forall n :: n in old(servers) ==> servers[n] == old(servers[n])
      ensures name in old(servers) ==> order == old(order)
      ensures name !in old(servers) ==> order == old(order) + [name] && servers[name].config == config
      ensures name !in old(servers) ==> servers[name].session.None?
      ensures servers[name].process ==
        AfterStart(if name in old(servers) then old(servers[name].process) else None,
                   exited, spawnOk, PlannedSpawn(name, servers[name].config, host))
      ensures ok <==> servers[name].process.Some?
      ensures forall n :: n in old(servers) && n != name ==> servers[n].process == old(servers[n].process)
      ensures forall n :: n in old(servers) ==> servers[n].session == old(servers[n].session)
    {
      if name !in servers {
        Register(name, config);
      }
      ok := servers[name].Start(host, exited, spawnOk);
    }

    /** The registry has grown from `orig` by `targets`, and `p` holds every
        server's handle. */
    ghost predicate Mirrors(orig: map<string, Server>, p: map<string, Option<Child>>, targets: set<string>)
      reads this, Repr
    {
      Valid() &&
      (forall n :: (n in servers <==> n in orig || n in targets) && (n in p <==> n in servers)) &&
      (forall n :: n in orig ==> servers[n] == orig[n]) &&
      (forall n :: n in servers ==> servers[n].process == p[n])
    }

    /** Every server created since `orig` still has no session. */
    ghost predicate NewSessionsClear(orig: map<string, Server>)
      reads this, Repr
      requires Valid()
    {
      forall n :: n in servers && n !in orig ==> servers[n].session.None?
    }

    /** `start_server` as `start_selected_servers` calls it: the registry
        keeps mirroring the handles, now with the new one recorded. */
    method StartOne(name: string, config: ServerConfig, host: Host, exited: bool, spawnOk: bool,
                    ghost orig: map<string, Server>, ghost p: map<string, Option<Child>>, ghost targets: set<string>)
      returns (ok: bool, ghost h: Option<Child>)
      requires Mirrors(orig, p, targets)
      requires name !in targets
      modifies this`servers, this`order, this`Position, this`Repr, Repr`process
      ensures Mirrors(orig, p[name := h], targets + {name})
      ensures h == AfterStart(HandleOf(p, name), exited, spawnOk,
                              PlannedSpawn(name, if name in orig then orig[name].config else config, host))
      ensures ok <==> h.Some?
      ensures fresh(Repr - old(Repr))
      ensures name in old(servers) ==> order == old(order)
      ensures name !in old(servers) ==> order == old(order) + [name]
      ensures name !in old(servers) ==> servers[name].session.None?
      ensures old(NewSessionsClear(orig)) ==> NewSessionsClear(orig)
    {
      ghost var wasClear := NewSessionsClear(orig);
      ok := StartServer(name, config, host, exited, spawnOk);
      h := servers[name].process;
      MirrorsRecord(orig, p, targets, name, h);
      if wasClear {
        forall n | n in servers && n !in orig ensures servers[n].session.None? {
          if n != name {
            assert n in old(servers) && old(servers[n].session).None?;
          }
        }
      }
    }

    /** Recording the one handle that changed keeps the registry mirrored. */
    lemma MirrorsRecord(orig: map<string, Server>, p: map<string, Option<Child>>, targets: set<string>, name: string, h: Option<Child>)
      requires Valid()
      requires forall n :: n in servers <==> n in orig || n in targets || n == name
      requires forall n :: n in p <==> n in orig || n in targets
      requires forall n :: n in orig ==> servers[n] == orig[n]
      requires name in servers && servers[name].process == h
      requires forall n :: n in servers && n != name ==> servers[n].process == p[n]
      ensures Mirrors(orig, p[name := h], targets + {name})
    {
    }

    /** `start_selected_servers`: the selection is walked in the set's
        (unspecified) order; a name without configuration is skipped. The
        started list holds exactly the selected, configured names whose
        server has a child afterwards. */
    method StartSelectedServers(configs: map<string, ServerConfig>, host: Host, exited: string -> bool, spawnOk: string -> bool)
      returns (started: seq<string>)
      requires Valid()
      modifies this`servers, this`order, this`Position, this`Repr, Repr`process
      ensures Valid() && fresh(Repr - old(Repr))
      ensures forall i, j :: 0 <= i < j < |started| ==> started[i] != started[j]
      ensures forall n :: n in servers <==> n in old(servers) || (n in selected && n in configs)
      ensures old(order) <= order
      ensures forall n :: n in order[|old(order)|..] <==> n in servers && n !in old(servers)
      ensures forall n :: n in servers && n !in old(servers) ==> servers[n].session.None?
      ensures forall n :: n in started <==> n in selected && n in configs && servers[n].process.Some?
      ensures forall n :: n in old(servers) ==> servers[n] == old(servers[n])
      ensures forall n :: n in old(servers) && !(n in selected && n in configs) ==>
        servers[n].process == old(servers[n].process)
      ensures forall n :: n in selected && n in configs ==>
        servers[n].process == AfterStart(HandleOf(old(Handles()), n), exited(n), spawnOk(n),
                                         PlannedSpawn(n, ConfigFor(old(servers), configs, n), host))
    {
      ghost var before := Handles();
      ghost var orig := servers;
      ghost var order0, position0, repr0 := order, Position, Repr;
      ghost var p := before;
      started := [];
      var remaining := selected;
      ghost var targets: set<string> := {};
      while remaining != {}
        invariant Mirrors(orig, p, targets) && StartProgress(orig, configs, before, p, targets, started, host, exited, spawnOk)
        invariant fresh(Repr - old(Repr))
        invariant old(order) <= order
        invariant NewSessionsClear(orig)
        invariant remaining <= selected
        invariant forall n :: n in targets <==> n in selected && n !in remaining && n in configs
        decreases remaining
      {
        var name :| name in remaining;
        remaining := remaining - {name};
        if name in configs {
          var success;
          ghost var h;
          success, h := StartOne(name, configs[name], host, exited(name), spawnOk(name), orig, p, targets);
          StartProgressStep(orig, configs, before, p, targets, started, host, exited, spawnOk, name, h, success);
          p := p[name := h];
          if success {
            started := started + [name];
          }
          targets := targets + {name};
        }
      }
      OrderGrows(orig, order0, position0, repr0, servers, order, Position, Repr);
    }

    /** `stop_server`: an unknown name is reported, not created. */
    method StopServer(name: string, closeOk: bool, path: StopPath) returns (ok: bool)
      requires Valid()
      modifies Repr
      ensures name !in servers ==> !ok
      ensures name in servers ==>
        (ok <==> old(servers[name].process).None? || path != SignalRaised) &&
        servers[name].process == AfterStop(old(servers[name].process), path) &&
        servers[name].session == AfterCleanup(old(servers[name].session), closeOk)
      ensures forall n :: n in servers && n != name ==>
        servers[n].process == old(servers[n].process) && servers[n].session == old(servers[n].session)
    {
      if name !in servers {
        return false;
      }
      ok := servers[name].Stop(closeOk, path);
    }

    /** `stop_all_servers`: every known server is stopped, in insertion order,
        whatever the outcome for the others. */
    method StopAllServers(closeOk: string -> bool, path: string -> StopPath)
      requires Valid()
      modifies Repr
      ensures forall n :: n in servers ==>
        servers[n].process == AfterStop(old(servers[n].process), path(n)) &&
        servers[n].session == AfterCleanup(old(servers[n].session), closeOk(n))
    {
      var names := order;
      var i := 0;
      while i < |names|
        invariant 0 <= i <= |names|
        invariant forall k :: 0 <= k < i ==>
          servers[names[k]].process == AfterStop(old(servers[names[k]].process), path(names[k])) &&
          servers[names[k]].session == AfterCleanup(old(servers[names[k]].session), closeOk(names[k]))
        invariant forall k :: i <= k < |names| ==>
          servers[names[k]].process == old(servers[names[k]].process) &&
          servers[names[k]].session == old(servers[names[k]].session)
      {
        var _ := StopServer(names[i], closeOk(names[i]), path(names[i]));
        i := i + 1;
      }
    }

    /** `get_running_servers`: the running names in insertion order; a dead
        handle is cleared on the way. */
    method GetRunningServers(exited: string -> bool) returns (running: seq<string>)
      requires Valid()
      modifies Repr`process
      ensures running == LiveNames(order, old(Handles()), exited)
      ensures forall n :: n in servers ==> servers[n].process == (if exited(n) then None else old(servers[n].process))
    {
      ghost var before := Handles();
      running := [];
      var i := 0;
      while i < |order|
        invariant 0 <= i <= |order|
        invariant running == LiveNames(order[..i], before, exited)
        invariant forall k :: 0 <= k < i ==>
          servers[order[k]].process == (if exited(order[k]) then None else before[order[k]])
        invariant forall k :: i <= k < |order| ==> servers[order[k]].process == before[order[k]]
      {
        var name := order[i];
        LiveNamesStep(order, i, before, exited);
        var live := servers[name].IsRunning(exited(name));
        if live {
          running := running + [name];
        }
        i := i + 1;
      }
      assert order[..i] == order;
    }

    /** `is_server_running`. */
    method IsServerRunning(name: string, exited: bool) returns (running: bool)
      requires Valid()
      modifies Repr`process
      ensures running <==> name in servers && old(servers[name].process).Some? && !exited
      ensures name in servers ==>
        servers[name].process == (if running then old(servers[name].process) else None)
      ensures forall n :: n in servers && n != name ==> servers[n].process == old(servers[n].process)
    {
      if name !in servers {
        return false;
      }
      running := servers[name].IsRunning(exited);
    }
  }
}

=== FILE: tools.dfy ===
/** The example MCP client of example_llm_mcp/main.py: how a tool is
    described to the language model (as a function-call schema or as a
    block of text), how a tool call is retried, and how the stdio launch
    parameters of a server are resolved.

    The session's answers, `shutil.which`, the inherited environment and
    Python's `str()` of a non-string JSON value are parameters. */
module ToolClient {
  import opened Wrappers

  /** A JSON value as `json.load` builds it; an object keeps its keys in
      insertion order, as a Python dict does. A Python dict holds each key
      once (`DistinctKeys`); the operations below are defined for any item
      list, and agree with the dict on one whose keys are distinct. */
  datatype Json =
    | JNull
    | JBool(b: bool)
    | JNum(n: int)
    | JStr(s: string)
    | JArr(items: seq<Json>)
    | JObj(entries: seq<(string, Json)>)

  /** The exceptions the formatter can raise on a malformed schema. */
  datatype PyError = AttributeError | TypeError

  /** `key in d` / `d[key]` on a dict given as its items. */
  function Lookup(entries: seq<(string, Json)>, key: string): (r: Option<Json>)
    ensures r.Some? <==> exists i :: 0 <= i < |entries| && entries[i].0 == key
    ensures r.Some? ==> exists i :: 0 <= i < |entries| && entries[i] == (key, r.value)
  {
    if entries == [] then None
    else if entries[0].0 == key then Some(entries[0].1)
    else Lookup(entries[1..], key)
  }

  /** The item list of a Python dict: no key occurs twice. */
  predicate DistinctKeys(entries: seq<(string, Json)>)
  {
    forall i, j :: 0 <= i < j < |entries| ==> entries[i].0 != entries[j].0
  }

  /** On a dict's items, looking up any key finds the value stored with it. */
  lemma {:induction false} LookupDistinct(entries: seq<(string, Json)>, i: nat)
    requires DistinctKeys(entries) && i < |entries|
    ensures Lookup(entries, entries[i].0) == Some(entries[i].1)
  {
    if i > 0 {
      assert entries[0].0 != entries[i].0;
      assert entries[1..][i - 1] == entries[i];
      LookupDistinct(entries[1..], i - 1);
    }
  }

  /** `d.get(key, default)`. */
  function GetOr(entries: seq<(string, Json)>, key: string, default: Json): (r: Json)
    ensures Lookup(entries, key).None? ==> r == default
    ensures Lookup(entries, key).Some? ==> r == Lookup(entries, key).value
  {
    match Lookup(entries, key)
    case None => default
    case Some(v) => v
  }

  /** A member of a JSON object; `None` for a missing key or a non-object. */
  function At(j: Json, key: string): Option<Json>
  {
    if j.JObj? then Lookup(j.entries, key) else None
  }

  /** `needle in hay` on two strings. */
  predicate IsSubstring(needle: string, hay: string)
  {
    exists i :: 0 <= i <= |hay| - |needle| && OccursAt(needle, hay, i)
  }

  predicate OccursAt(needle: string, hay: string, i: int)
    requires 0 <= i <= |hay| - |needle|
  {
    hay[i..i + |needle|] == needle
  }

  /** `name in required`, where `required` is whatever the schema holds
      under that key: list membership, dict-key membership or substring
      search; any other value is not iterable. */
  function Contains(required: Json, name: string): (r: Result<bool, PyError>)
    ensures required.JArr? ==> r == Success(JStr(name) in required.items)
    ensures required.JObj? ==> r == Success(Lookup(required.entries, name).Some?)
    ensures required.JStr? ==> r == Success(IsSubstring(name, required.s))
    ensures r.Failure? <==> required.JNull? || required.JBool? || required.JNum?
  {
    match required
    case JArr(items) => Success(JStr(name) in items)
    case JObj(entries) => Success(Lookup(entries, name).Some?)
    case JStr(s) => Success(IsSubstring(name, s))
    case _ => Failure(TypeError)
  }

  /** An MCP tool: the description is optional in the protocol. */
  datatype Tool = Tool(name: string, description: Option<string>, inputSchema: seq<(string, Json)>)

  const NoDescription: string := "No description"
  const RequiredMark: string := " (required)"

  /** `param_info.get('description', 'No description')` as an f-string
      shows it; `show` is Python's `str()` of a non-string value. */
  function Description(info: Json, show: Json -> string): (r: Result<string, PyError>)
    ensures !info.JObj? ==> r == Failure(AttributeError)
    ensures info.JObj? ==> r.Success?
    ensures info.JObj? && Lookup(info.entries, "description").None? ==> r == Success(NoDescription)
    ensures info.JObj? && Lookup(info.entries, "description").Some? && Lookup(info.entries, "description").value.JStr? ==>
      r == Success(Lookup(info.entries, "description").value.s)
  {
    if !info.JObj? then Failure(AttributeError)
    else match Lookup(info.entries, "description")
      case None => Success(NoDescription)
      case Some(JStr(s)) => Success(s)
      case Some(v) => Success(show(v))
  }

  /** One line of the `Arguments:` block. */
  function ArgLine(param: string, description: string, required: bool): string
  {
    "- " + param + ": " + description + (if required then RequiredMark else "")
  }

  /** Python's `sep.join(parts)`. */
  function Join(sep: string, parts: seq<string>): (s: string)
    ensures |parts| == 1 ==> s == parts[0]
    ensures |parts| == 0 ==> s == ""
  {
    if |parts| == 0 then ""
    else if |parts| == 1 then parts[0]
    else parts[0] + sep + Join(sep, parts[1..])
  }

  /** The `args_desc` list built from the schema's properties: one line per
      property, in property order, or the first exception raised. */
  function ArgLines(props: seq<(string, Json)>, required: Json, show: Json -> string): (r: Result<seq<string>, PyError>)
    ensures r.Success? ==> |r.value| == |props|
    ensures r.Success? ==> forall i :: 0 <= i < |props| ==>
      Description(props[i].1, show).Success? && Contains(required, props[i].0).Success? &&
      r.value[i] == ArgLine(props[i].0, Description(props[i].1, show).value, Contains(required, props[i].0).value)
    ensures r.Failure? <==>
      (exists i :: 0 <= i < |props| && (Description(props[i].1, show).Failure? || Contains(required, props[i].0).Failure?))
  {
    if props == [] then Success([])
    else
      var init := props[..|props| - 1];
      var last := props[|props| - 1];
      assert forall i :: 0 <= i < |init| ==> init[i] == props[i];
      match ArgLines(init, required, show)
      case Failure(e) => Failure(e)
      case Success(lines) =>
        match Description(last.1, show)
        case Failure(e) => Failure(e)
        case Success(d) =>
          match Contains(required, last.0)
          case Failure(e) => Failure(e)
          case Success(req) => Success(lines + [ArgLine(last.0, d, req)])
  }

  predicate EndsWith(s: string, suffix: string)
  {
    |s| >= |suffix| && s[|s| - |suffix|..] == suffix
  }

  /** A line gets the required marker exactly when its parameter is
      required, unless the description itself ends in `(required)`. */
  lemma ArgLineMarker(param: string, description: string, required: bool)
    requires !EndsWith(" " + description, RequiredMark)
    ensures EndsWith(ArgLine(param, description, required), RequiredMark) <==> required
    ensures "- " + param + ": " <= ArgLine(param, description, required)
  {
    var line := ArgLine(param, description, required);
    var head := "- " + param + ":";
    var tail := " " + description;
    assert "- " + param + ": " + description == head + tail;
    if required {
      assert line == (head + tail) + RequiredMark;
      assert line[|line| - |RequiredMark|..] == RequiredMark;
    } else {
      assert line == head + tail;
      if |tail| >= |RequiredMark| {
        assert line[|line| - |RequiredMark|..] == tail[|tail| - |RequiredMark|..];
      } else {
        var k := |RequiredMark| - |tail| - 1;
        assert line[|line| - |RequiredMark| + k] == ':';
        assert RequiredMark[k] != ':';
      }
    }
  }

  function ShowDescription(d: Option<string>): string
  {
    if d.Some? then d.value else "None"
  }

  /** The block of text `format_for_llm()` returns by default. */
  function TextForm(tool: Tool, show: Json -> string): (r: Result<string, PyError>)
  {
    var lines :=
      match Lookup(tool.inputSchema, "properties")
      case None => Success([])
      case Some(JObj(props)) => ArgLines(props, GetOr(tool.inputSchema, "required", JArr([])), show)
      case Some(_) => Failure(AttributeError);
    if lines.Failure? then Failure(lines.error)
    else Success("\nTool: " + tool.name + "\nDescription: " + ShowDescription(tool.description) +
                 "\nArguments:\n" + Join("\n", lines.value) + "\n")
  }

  /** The text branch of `format_for_llm`: the loop that appends one line
      per property. */
  method FormatText(tool: Tool, show: Json -> string) returns (r: Result<string, PyError>)
    ensures r == TextForm(tool, show)
  {
    var argsDesc: seq<string> := [];
    var props := Lookup(tool.inputSchema, "properties");
    if props.Some? {
      if !props.value.JObj? {
        return Failure(AttributeError);
      }
      var entries := props.value.entries;
      var required := GetOr(tool.inputSchema, "required", JArr([]));
      var i := 0;
      while i < |entries|
        invariant 0 <= i <= |entries|
        invariant ArgLines(entries[..i], required, show) == Success(argsDesc)
      {
        assert entries[..i + 1][..i] == entries[..i];
        var d := Description(entries[i].1, show);
        if d.Failure? {
          FirstFailureSticks(entries, i + 1, required, show);
          return Failure(d.error);
        }
        var req := Contains(required, entries[i].0);
        if req.Failure? {
          FirstFailureSticks(entries, i + 1, required, show);
          return Failure(req.error);
        }
        argsDesc := argsDesc + [ArgLine(entries[i].0, d.value, req.value)];
        i := i + 1;
      }
      assert entries[..i] == entries;
    }
    r := Success("\nTool: " + tool.name + "\nDescription: " + ShowDescription(tool.description) +
                 "\nArguments:\n" + Join("\n", argsDesc) + "\n");
  }

  /** Once a prefix of the properties raises, so does the whole list, with
      the same exception. */
  lemma {:induction false} FirstFailureSticks(props: seq<(string, Json)>, k: nat, required: Json, show: Json -> string)
    requires k <= |props|
    requires ArgLines(props[..k], required, show).Failure?
    ensures ArgLines(props, required, show) == ArgLines(props[..k], required, show)
    decreases |props| - k
  {
    if k < |props| {
      assert props[..k + 1][..k] == props[..k];
      FirstFailureSticks(props, k + 1, required, show);
    } else {
      assert props[..k] == props;
    }
  }

  /** A tool in the function-calling format: `parameters.properties` is a
      copy of the schema's properties (empty when there are none), and
      `required` and `additionalProperties` fall back to `[]` and `false`.
      A `properties` value that is not a dict has no `items()`. */
  function FunctionCallForm(tool: Tool): (r: Result<Json, PyError>)
    ensures r.Failure? <==> Lookup(tool.inputSchema, "properties").Some? && !Lookup(tool.inputSchema, "properties").value.JObj?
    ensures r.Failure? ==> r.error == AttributeError
  {
    var props :=
      match Lookup(tool.inputSchema, "properties")
      case None => Success(JObj([]))
      case Some(JObj(entries)) => Success(JObj(entries))
      case Some(_) => Failure(AttributeError);
    if props.Failure? then Failure(props.error)
    else Success(FunctionObject(tool.name, tool.description, props.value,
                                GetOr(tool.inputSchema, "required", JArr([])),
                                GetOr(tool.inputSchema, "additionalProperties", JBool(false))))
  }

  /** The dict literal of the function-calling branch. */
  function FunctionObject(name: string, description: Option<string>, properties: Json, required: Json, additional: Json): Json
  {
    var parameters := JObj([
      ("type", JStr("object")),
      ("properties", properties),
      ("required", required),
      ("additionalProperties", additional)]);
    var fn := JObj([
      ("name", JStr(name)),
      ("description", if description.Some? then JStr(description.value) else JNull),
      ("parameters", parameters)]);
    JObj([("type", JStr("function")), ("function", fn)])
  }

  /** Reading the function-call form back: `type` is `"function"`, the name
      and description are copied, `parameters.type` is `"object"`,
      `parameters.properties` is the schema's properties or `{}`, and
      `required` and `additionalProperties` fall back to `[]` and `false`. */
  lemma FunctionCallFields(tool: Tool)
    requires FunctionCallForm(tool).Success?
    ensures var j := FunctionCallForm(tool).value;
      At(j, "type") == Some(JStr("function")) &&
      At(j, "function").Some? &&
      var f := At(j, "function").value;
      At(f, "name") == Some(JStr(tool.name)) &&
      At(f, "description") == Some(if tool.description.Some? then JStr(tool.description.value) else JNull) &&
      At(f, "parameters").Some? &&
      var p := At(f, "parameters").value;
      At(p, "type") == Some(JStr("object")) &&
      At(p, "properties") == Some(if Lookup(tool.inputSchema, "properties").Some? then Lookup(tool.inputSchema, "properties").value else JObj([])) &&
      At(p, "required") == Some(GetOr(tool.inputSchema, "required", JArr([]))) &&
      At(p, "additionalProperties") == Some(GetOr(tool.inputSchema, "additionalProperties", JBool(false)))
  {
    var j := FunctionCallForm(tool).value;
    var properties := if Lookup(tool.inputSchema, "properties").Some? then Lookup(tool.inputSchema, "properties").value else JObj([]);
    var required := GetOr(tool.inputSchema, "required", JArr([]));
    var additional := GetOr(tool.inputSchema, "additionalProperties", JBool(false));
    var desc := if tool.description.Some? then JStr(tool.description.value) else JNull;
    var pe := [("type", JStr("object")), ("properties", properties), ("required", required), ("additionalProperties", additional)];
    var fe := [("name", JStr(tool.name)), ("description", desc), ("parameters", JObj(pe))];
    var je := [("type", JStr("function")), ("function", JObj(fe))];
    assert j == JObj(je);
    LookupTwo(je[0], je[1]);
    LookupThree(fe[0], fe[1], fe[2]);
    LookupFour(pe[0], pe[1], pe[2], pe[3]);
  }

  lemma LookupTwo(a: (string, Json), b: (string, Json))
    requires a.0 != b.0
    ensures Lookup([a, b], a.0) == Some(a.1) && Lookup([a, b], b.0) == Some(b.1)
  {
    assert [a, b][1..] == [b];
  }

  lemma LookupThree(a: (string, Json), b: (string, Json), c: (string, Json))
    requires a.0 != b.0 && a.0 != c.0 && b.0 != c.0
    ensures Lookup([a, b, c], a.0) == Some(a.1) && Lookup([a, b, c], b.0) == Some(b.1) && Lookup([a, b, c], c.0) == Some(c.1)
  {
    assert [a, b, c][1..] == [b, c];
    LookupTwo(b, c);
  }

  lemma LookupFour(a: (string, Json), b: (string, Json), c: (string, Json), d: (string, Json))
    requires a.0 != b.0 && a.0 != c.0 && a.0 != d.0 && b.0 != c.0 && b.0 != d.0 && c.0 != d.0
    ensures Lookup([a, b, c, d], a.0) == Some(a.1) && Lookup([a, b, c, d], b.0) == Some(b.1)
    ensures Lookup([a, b, c, d], c.0) == Some(c.1) && Lookup([a, b, c, d], d.0) == Some(d.1)
  {
    assert [a, b, c, d][1..] == [b, c, d];
    LookupThree(b, c, d);
  }

  /** The two forms agree: a tool the text form can describe is also
      describable as a function call, with one argument line per property
      the function-call form carries. */
  lemma FormsAgree(tool: Tool, show: Json -> string)
    requires TextForm(tool, show).Success?
    ensures FunctionCallForm(tool).Success?
    ensures var j := FunctionCallForm(tool).value;
      At(j, "function").Some? && At(At(j, "function").value, "parameters").Some? &&
      var p := At(At(j, "function").value, "parameters").value;
      At(p, "properties").Some? && At(p, "properties").value.JObj? &&
      ArgLines(At(p, "properties").value.entries, GetOr(tool.inputSchema, "required", JArr([])), show).Success?
  {
    var props := Lookup(tool.inputSchema, "properties");
    assert props.None? || props.value.JObj?;
    FunctionCallFields(tool);
    if props.None? {
      assert ArgLines([], GetOr(tool.inputSchema, "required", JArr([])), show).Success?;
    }
  }

  /** Why `execute_tool` fails: no session, or the last attempt raised. */
  datatype ToolError = NotInitialized(server: string) | CallFailed(reason: string)

  /** The outcome of attempts `k`, `k + 1`, ... up to `retries`, where
      `call(k)` is what the `k`-th `call_tool` returns or raises. */
  function Attempts(call: nat -> Result<Json, string>, k: nat, retries: int): (r: Result<Option<Json>, ToolError>)
    requires k < retries
    decreases retries - k
    ensures r.Success? ==> r.value.Some?
    ensures r.Success? ==>
      exists j: nat :: k <= j < retries && call(j) == Success(r.value.value) &&
        forall i: nat :: k <= i < j ==> call(i).Failure?
    ensures r.Failure? ==> forall i: nat :: k <= i < retries ==> call(i).Failure?
    ensures r.Failure? ==> call(retries - 1).Failure? && r.error == CallFailed(call(retries - 1).error)
  {
    if call(k).Success? then Success(Some(call(k).value))
    else if k + 1 < retries then Attempts(call, k + 1, retries)
    else Failure(CallFailed(call(k).error))
  }

  /** The session's part of `execute_tool`: with no attempt allowed the
      loop is skipped and `None` is returned. */
  function Retried(call: nat -> Result<Json, string>, retries: int): (r: Result<Option<Json>, ToolError>)
  {
    if retries <= 0 then Success(None) else Attempts(call, 0, retries)
  }

  const DefaultRetries: int := 2

  /** What `StdioServerParameters` is built from. */
  datatype StdioParams = StdioParams(command: string, args: seq<string>, env: Option<map<string, string>>)

  /** One entry of `servers_config.json`: `command` is any JSON value, a
      missing key is `None`. */
  datatype ServerConfig = ServerConfig(command: Option<Json>, args: Option<seq<string>>, env: Option<map<string, string>>)

  /** Why `initialize` raises: a missing key (`KeyError`), a command that
      resolves to `None` (`ValueError`), a command that is not a string
      (rejected by the parameter model), or the connection failing. */
  datatype InitError = MissingKey(key: string) | CommandIsNone | CommandNotString | ConnectFailed

  /** The launch parameters `initialize` resolves: `"npx"` is looked up on
      the `PATH`, any other command is used as written; the environment is
      the inherited one overridden by the configured one, and is passed
      only when the configured one is non-empty. */
  function ResolveParams(config: ServerConfig, which: string -> Option<string>, environ: map<string, string>): (r: Result<StdioParams, InitError>)
    ensures config.command.None? ==> r == Failure(MissingKey("command"))
    ensures config.command == Some(JNull) || (config.command == Some(JStr("npx")) && which("npx").None?) ==>
      r == Failure(CommandIsNone)
    ensures r.Success? <==>
      config.command.Some? && config.command.value.JStr? && config.args.Some? &&
      (config.command.value.s != "npx" || which("npx").Some?)
    ensures r.Success? ==>
      r.value.command == (if config.command.value.s == "npx" then which("npx").value else config.command.value.s)
    ensures r.Success? ==> r.value.args == config.args.value
    ensures r.Success? ==> (r.value.env.Some? <==> config.env.Some? && |config.env.value| > 0)
    ensures r.Success? && r.value.env.Some? ==>
      r.value.env.value.Keys == environ.Keys + config.env.value.Keys &&
      (forall k :: k in config.env.value ==> r.value.env.value[k] == config.env.value[k]) &&
      (forall k :: k in environ && k !in config.env.value ==> r.value.env.value[k] == environ[k])
    ensures config.command.Some? && config.command.value.JStr? && config.args.None? &&
            (config.command.value.s != "npx" || which("npx").Some?) ==>
              r == Failure(MissingKey("args"))
  {
    if config.command.None? then Failure(MissingKey("command"))
    else
      var command :=
        match config.command.value
        case JStr(s) => if s == "npx" then (if which("npx").Some? then Success(which("npx").value) else Failure(CommandIsNone))
                        else Success(s)
        case JNull => Failure(CommandIsNone)
        case _ => Success("");
      if command.Failure? then Failure(command.error)
      else if config.args.None? then Failure(MissingKey("args"))
      else if !config.command.value.JStr? then Failure(CommandNotString)
      else
        var env := if config.env.Some? && |config.env.value| > 0 then Some(environ + config.env.value) else None;
        Success(StdioParams(command.value, config.args.value, env))
  }

  /** An open `ClientSession`. */
  datatype Session = Session(id: nat)

  /** The example client's `Server`: a configured MCP server and the
      session `initialize` opens on it. */
  class Server {
    const name: string
    const config: ServerConfig
    var session: Option<Session>

    constructor (name: string, config: ServerConfig)
      ensures this.name == name && this.config == config && session.None?
    {
      this.name := name;
      this.config := config;
      session := None;
    }

    /** `initialize`: a resolution error is raised before anything is
        opened; a failed connection runs `cleanup` and re-raises. `id`
        names the session the handshake would open. */
    method Initialize(which: string -> Option<string>, environ: map<string, string>,
                      connectOk: bool, closeOk: bool, id: nat) returns (r: Result<StdioParams, InitError>)
      modifies this`session
      ensures ResolveParams(config, which, environ).Failure? ==>
        r == ResolveParams(config, which, environ) && session == old(session)
      ensures ResolveParams(config, which, environ).Success? && connectOk ==>
        r == ResolveParams(config, which, environ) && session == Some(Session(id))
      ensures ResolveParams(config, which, environ).Success? && !connectOk ==>
        r == Failure(ConnectFailed) && session == (if closeOk then None else old(session))
    {
      var params := ResolveParams(config, which, environ);
      if params.Failure? {
        return params;
      }
      if !connectOk {
        Cleanup(closeOk);
        return Failure(ConnectFailed);
      }
      session := Some(Session(id));
      return params;
    }

    /** `cleanup`: the session is dropped once the exit stack has closed;
        an exception while closing is only reported. */
    method Cleanup(closeOk: bool)
      modifies this`session
      ensures session == (if closeOk then None else old(session))
    {
      if closeOk {
        session := None;
      }
    }

    /** `execute_tool`: at most `retries` calls, the first success returned,
        the last failure re-raised; `calls` counts the calls made. */
    method ExecuteTool(call: nat -> Result<Json, string>, retries: int := DefaultRetries) returns (r: Result<Option<Json>, ToolError>, calls: nat)
      ensures session.None? ==> r == Failure(NotInitialized(name)) && calls == 0
      ensures session.Some? ==> r == Retried(call, retries)
      ensures calls <= (if retries > 0 then retries else 0)
      ensures r.Success? && r.value.Some? ==>
        calls >= 1 && call(calls - 1) == Success(r.value.value) &&
        forall i: nat :: i < calls - 1 ==> call(i).Failure?
      ensures session.Some? && r.Failure? ==> calls == retries
      ensures r.Success? && r.value.None? ==> calls == 0
    {
      if session.None? {
        return Failure(NotInitialized(name)), 0;
      }
      var attempt: nat := 0;
      calls := 0;
      while attempt < retries
        invariant attempt == calls
        invariant retries <= 0 ==> attempt == 0
        invariant retries > 0 ==> attempt < retries
        invariant forall i: nat :: i < attempt ==> call(i).Failure?
        invariant retries > 0 && attempt < retries ==> Retried(call, retries) == Attempts(call, attempt, retries)
        decreases retries - attempt
      {
        var result := call(attempt);
        calls := calls + 1;
        if result.Success? {
          return Success(Some(result.value)), calls;
        }
        attempt := attempt + 1;
        if attempt >= retries {
          return Failure(CallFailed(result.error)), calls;
        }
      }
      return Success(None), calls;
    }
  }
}

=== FILE: wrappers.dfy ===
/** Option and Result, the two failure-carrying datatypes the model uses
    for Python's `None` and for raised exceptions. */
module Wrappers {

  datatype Option<+T> = None | Some(value: T)

  datatype Result<+T, +E> = Success(value: T) | Failure(error: E)
}
